=== FILE: README.md ===
# SnorkTracker option handling, modelled in Dafny

SnorkTracker is an ESP8266 GPS/GSM tracker. Two parts of it read and change the
same `MyOptions` record, and this project models both:

* **The SMS command interpreter (`MySmsCmd`, tracker/SmsCmd.h).** It covers:
  - the poll gate of `handleClient`;
  - the `checkSms` loop, which lower-cases, deletes, dispatches and replies;
  - the three `readValues` parsers, which use C `atoi`;
  - the handlers `cmdOn`, `cmdOff`, `cmdStatus`, `cmdGps`, `cmdSms`, `cmdMqtt`, `cmdPhone` and `cmdDefault`.
* **The settings codec and HTML helpers of the web server (`MyWebServer`, tracker/WebServer.h).** It covers:
  - `TextToXml` and the table helpers;
  - the typed `GetOption` overloads and `handleSaveSettings`;
  - the `AddOption` overloads and the settings form of `handleLoadSettingsInfo`;
  - the power toggle and measurement table of `handleLoadMainInfo`;
  - the path and content-type mapping of `loadFromSpiffs`.

Every operation is a pure function over immutable records. `MyOptions` is the
record `Options.Options`, with one `Options.Field` tag per member. `save()` is
modelled by the counter in `Options.Store`. Modem traffic is a log of
`Deleted`/`Sent` events. The current second, the URL arguments (a
`map<string,string>`) and the set of stored files are parameters. Two pieces of
floating-point code are also passed in as functions rather than modelled:
`atof` and Arduino's `String(double, n)` (the `Formatter`).

Modules, one file each:

| module | file | contents |
|---|---|---|
| `Str` | str.dfy | C `isspace`/`isdigit`, `toLowerCase`, `indexOf`/`lastIndexOf`, `endsWith`, `atoi`, `String(long)` |
| `Options` | options.dfy | the option record, field tags, the save counter, the telemetry record |
| `Html` | html.dfy | `TextToXml`, table helpers, `AddBr`, the two `AddOption` overloads |
| `SmsCmd` | sms_cmd.dfy | `readValues`, the handlers, dispatch, the inbox drain, `handleClient` |
| `Settings` | settings.dfy | `GetOption`, `handleSaveSettings`, the settings form and its round trip |
| `WebServer` | web_server.dfy | `handleLoadMainInfo`, the `loadFromSpiffs` mapping |
| `Browser` | browser.dfy | how a browser reads a text input's `value='…'` attribute back when the form is submitted: the environment of the web server, not its code |

Where the help text and the code disagree, the model follows the code. The
help text of `cmdDefault` advertises commands with arguments: `gps[:15]`,
`sms[:15]`, `mqtt[30:60]` and `phone:1234`. But `checkSms` compares the whole
lower-cased message with a keyword. So:

* every message with a colon is answered with the help text and changes nothing;
* `cmdSms`, `cmdMqtt` and `cmdPhone` are only ever reached without an argument, and so they also answer with the help text.

Each handler is modelled on its own with its own contract, including the
argument branches. What is reachable through the dispatcher is then proved
separately (`SmsCmd.HandleIsReference`, `SmsCmd.DrainOptions`). This is listed
under Findings. `SmsCmd.HandleByWord` is the dispatch the help text describes:
it selects the command by the word before the first colon. Under it, "gps:15",
"sms:15", "mqtt:30:60" and "phone:1234" reach the argument branches of their
handlers (`SmsCmd.HandleByWordSetsGpsInterval` and the lemmas next to it).
Without a colon it agrees with the original (`SmsCmd.HandleByWordWithoutColon`).

The settings page writes each text value as `value='` + `TextToXml(value)` + `'>`
(tracker/WebServer.h:273). What comes back when the form is saved is what a
browser reads from that attribute. The `Browser` module models that reading:
the value ends at the first `'`, character references are decoded, and carriage
returns and line feeds are dropped. Two things follow.

* `TextToXml` writes `&`, `<` and `>` as the URL escapes `%26`, `%3C` and `%3E`, not as HTML entities. The browser submits them literally, so such a value comes back changed (`Settings.AmpersandIsCorrupted`).
* `TextToXml` leaves `'` alone, so the quote ends the attribute and the value is cut there: a WLAN name "Bob's" is saved as "Bob" (`Settings.ApostropheCutsValue`, `Settings.ApostropheExample`).

A string option comes back unchanged exactly when it holds none of `&`, `<`,
`>`, `'`, CR and LF (`Settings.TextRoundTripIff`). When every string option is
like that, every option except the voltage comes back unchanged
(`Settings.FormRoundTrip`). Both quirks are listed under Findings. The
corrected escaping `Html.AttrEscape` writes character references; with it,
every value without a line break is read back exactly
(`Browser.CorrectedValueRoundTrip`).

## Model

| member | source | states |
|---|---|---|
| Str.Lower | tracker/SmsCmd.h:100-102 | lower-casing keeps the length, maps each character through ASCII `tolower`, and leaves no upper-case letter |
| Str.LowerIdempotent | tracker/SmsCmd.h:100-102 | lower-casing twice is the same as lower-casing once |
| Str.LowerKeepsNonLetters | tracker/SmsCmd.h:100-102 | a non-letter such as `:` occurs in the lower-cased message iff it occurs in the message |
| Str.IndexOfFrom | tracker/SmsCmd.h:168 | `indexOf(c, from)` finds the first occurrence at or after `from`, and is absent iff there is none |
| Str.IndexOfFromAt | tracker/SmsCmd.h:168 | a `c` at `j` with no `c` between `from` and `j` is what `indexOf(c, from)` finds |
| Str.IndexOf | tracker/SmsCmd.h:141 | `indexOf(c)` is present iff `c` occurs; it then points at `c` with no `c` before it |
| Str.LastIndexOf | tracker/WebServer.h:297 | `lastIndexOf(c)` is present iff `c` occurs; it then points at `c` with no `c` after it |
| Str.IndexOfAfterHead | tracker/SmsCmd.h:141 | in `head + c + tail` with no `c` in `head`, the first `c` is at `|head|` |
| Str.SkipSpace | tracker/SmsCmd.h:156 | `atoi`'s whitespace skip drops exactly a prefix of white space and stops at a non-space |
| Str.LeadingDigits | tracker/SmsCmd.h:156 | `atoi`'s digit run is a prefix of digits followed by a non-digit or the end |
| Str.AtoiOfDigitStart | tracker/SmsCmd.h:156 | a text starting with a digit converts to the value of its leading digits |
| Str.AtoiOfMinusStart | tracker/SmsCmd.h:156 | a text starting with `-` converts to the negated value of the digits after it |
| Str.AtoiOfDigitsThen | tracker/SmsCmd.h:156 | digits followed by a non-digit convert to exactly the value of the digits |
| Str.AtoiOfMinusDigitsThen | tracker/SmsCmd.h:156 | `-` and digits followed by a non-digit convert to the negated value |
| Str.AtoiSkipsSpace | tracker/SmsCmd.h:156 | leading white space does not change the result of `atoi` |
| Str.EndsWith | tracker/WebServer.h:295-308 | `String::endsWith`: the text is at least as long as the suffix and its last characters are the suffix (definition) |
| Str.Atoi | tracker/WebServer.h:226 | C `atoi`: optional white space, an optional sign, then the value of the leading digits (definition; its meaning is fixed by the `Atoi…` lemmas below) |
| Str.AtoiWithoutDigits | tracker/SmsCmd.h:156 | a text with no digit at all converts to 0 |
| Str.NatToString | tracker/WebServer.h:430 | the decimal form of a number is a non-empty string of digits |
| Str.IntToString | tracker/WebServer.h:430 | `String(long)` is non-empty and starts with no white space |
| Str.DigitsValueOfNatToString | tracker/WebServer.h:430 | reading the digits of `String(n)` gives back `n` |
| Str.AtoiOfIntToString | tracker/WebServer.h:430 | `atoi` inverts `String(long)` for every integer when a non-digit or the end follows |
| Options.Get | tracker/WebServer.h:478-501 | each option's value has the kind of its C++ member type |
| Html.PlainIffNoSpecials | tracker/WebServer.h:173-179 | a text is free of `&`, `<`, `>` iff its count of them is zero |
| Html.EscapeChar | tracker/WebServer.h:175-177 | the replacement of one character has no special character, is 2 longer for a special one, and is the character itself otherwise |
| Html.Escape | tracker/WebServer.h:173-179 | the per-character reference escape has no special character, grows by 2 per special character, and leaves plain texts alone |
| Html.EscapeKeepsOthers | tracker/WebServer.h:173-179 | escaping adds only `%`, `2`, `6`, `3`, `C` and `E`: no quote or line break appears that was not in the input |
| Html.ReplaceAll | tracker/WebServer.h:175-177 | `String::replace` of one character: every occurrence, left to right (definition; see `Html.ReplaceAllAppend` and `Html.ReplaceAllAbsent`) |
| Html.ReplaceSpecials | tracker/WebServer.h:175-177 | the three replacements of `TextToXml` in the source's order (definition; `Html.ReplaceSpecialsIsEscape` ties it to the reference) |
| Html.ReplaceAllAppend | tracker/WebServer.h:175 | `String::replace` of a character distributes over concatenation |
| Html.ReplaceAllAbsent | tracker/WebServer.h:175 | replacing a character that does not occur changes nothing |
| Html.ReplaceSpecialsOfChar | tracker/WebServer.h:175-177 | the three replacements in sequence turn one character into its reference escape |
| Html.ReplaceSpecialsIsEscape | tracker/WebServer.h:175-177 | the three whole-string replacements in sequence equal the per-character reference escape, so `%26` added first is not touched again |
| Html.TextToXml | tracker/WebServer.h:173-179 | the output has no `&`, `<` or `>`; each special character adds exactly 2 characters; a text without them is returned unchanged |
| Html.TextToXmlIdempotent | tracker/WebServer.h:173-179 | escaping twice is the same as escaping once |
| Html.RowOpensSixTags | tracker/WebServer.h:197-200 | a data row opens exactly six tags whatever its name and value |
| Html.AddTableBegin | tracker/WebServer.h:182-185 | appends exactly the table start and keeps the text before it |
| Html.AddEmptyTableTr | tracker/WebServer.h:188-191 | appends exactly the empty row and keeps the text before it |
| Html.AddTableTr | tracker/WebServer.h:194-202 | only appends; appends nothing iff the value is empty; otherwise appends exactly the row of the escaped name and value |
| Html.AddTableEnd | tracker/WebServer.h:205-208 | appends exactly the table end and keeps the text before it |
| Html.AddBr | tracker/WebServer.h:260-263 | appends exactly `<br />` and keeps the text before it |
| Html.WithOptionalShape | tracker/WebServer.h:266-287 | an input with an optional attribute and an optional `<br />` has the attribute iff asked and ends in `<br />` iff asked |
| Html.ValueText | tracker/WebServer.h:273 | what follows the opening quote of `value=` ends with the closing `'>` |
| Html.TextOptionTail | tracker/WebServer.h:273 | the value part of a text input starts with `p` and ends with `'>` |
| Html.AddTextOptionShowsValue | tracker/WebServer.h:266-277 | a text input's `placeholder='' value='…'>` part, with the escaped value, is in what `AddOption` appends |
| Html.AttrEscapeChar | tracker/WebServer.h:273 | corrected half of a finding: the escape of a character for a single-quoted attribute holds no `'` |
| Html.AttrEscape | tracker/WebServer.h:273 | corrected half of a finding: the escape of a value for a single-quoted attribute holds no `'`, so the attribute cannot end early |
| Html.CheckboxTail | tracker/WebServer.h:283 | the caption part of a checkbox starts with `>` and ends with `b>` |
| Html.AddTextOption | tracker/WebServer.h:266-277 | only appends; carries `type='password'` iff `isPassword`; ends in `<br />` iff `addBr` |
| Html.AddCheckboxOption | tracker/WebServer.h:280-287 | only appends; carries ` checked` iff the value is true; ends in `<br />` iff `addBr` |
| SmsCmd.OkText | tracker/SmsCmd.h:133-136 | the OK reply is the original, not lower-cased, message followed by ` -> OK` |
| SmsCmd.ReadString | tracker/SmsCmd.h:139-148 | succeeds iff the message has a colon; the value is then the text after the first colon |
| SmsCmd.ReadLong | tracker/SmsCmd.h:151-160 | succeeds iff the message has a colon; the value is then `atoi` of the text after the first colon |
| SmsCmd.ReadTwo | tracker/SmsCmd.h:162-177 | succeeds iff the message has at least two colons |
| SmsCmd.ReadFieldsIffTwoColons | tracker/SmsCmd.h:162-177 | the two fields between and after the first two colons exist iff the message has at least two colons |
| SmsCmd.ReadFieldsAt | tracker/SmsCmd.h:165-172 | with the first colon at `i` and the next at `j`, the fields are the texts between them and after `j` |
| SmsCmd.NextColon | tracker/SmsCmd.h:168 | a colon right after a colon-free field is the one `indexOf(':', from)` finds |
| SmsCmd.CountAfterFirst | tracker/SmsCmd.h:165-168 | after the first colon there is one colon fewer, so a second colon exists iff there are two |
| SmsCmd.ReadStringOfColon | tracker/SmsCmd.h:139-148 | `head:suffix` with no colon in `head` yields exactly `suffix` |
| SmsCmd.ReadLongOfColon | tracker/SmsCmd.h:151-160 | `head:` followed by the decimal form of `n` yields `n` |
| SmsCmd.ReadTwoOfColons | tracker/SmsCmd.h:162-177 | `a:b:c` with no colon in `a` or `b` yields `atoi(b)` and `atoi(c)` |
| SmsCmd.NoColonNoArguments | tracker/SmsCmd.h:139-177 | without a colon none of the three parsers succeeds |
| SmsCmd.CmdOn | tracker/SmsCmd.h:180-186 | sets `gsmPower`, `isGsmEnabled` and `isGpsEnabled`, changes no other option, and replies OK |
| SmsCmd.CmdOff | tracker/SmsCmd.h:189-193 | clears `gsmPower` only and replies OK |
| SmsCmd.StatusText | tracker/SmsCmd.h:196-210 | the status report starts with `Status:` |
| SmsCmd.CmdStatus | tracker/SmsCmd.h:196-211 | changes no option and replies with the status report |
| SmsCmd.MapsLink | tracker/SmsCmd.h:217-219 | the position reply starts with the Google Maps URL |
| SmsCmd.MapsLinkReadsBack | tracker/SmsCmd.h:217-219 | after the URL come the latitude, a comma and the longitude, in that order: the query splits at its first comma into exactly the two coordinates whenever the latitude has no comma |
| SmsCmd.CmdDefault | tracker/SmsCmd.h:260-273 | changes no option and replies with the help text |
| SmsCmd.CmdGps | tracker/SmsCmd.h:214-227 | without a colon it replies with the maps link and changes nothing; with one it sets the GPS interval to `atoi` of the argument, changes nothing else, and replies OK |
| SmsCmd.MapsLinkIsNotHelp | tracker/SmsCmd.h:217-219 | the maps link is never the help text |
| SmsCmd.OkTextIsNotHelp | tracker/SmsCmd.h:133-136 | an OK reply is never the help text |
| SmsCmd.CmdGpsNeverHelps | tracker/SmsCmd.h:214-227 | `cmdGps` never answers with the help text, so its `cmdDefault` branch is dead |
| SmsCmd.CmdSms | tracker/SmsCmd.h:230-237 | with a colon it sets the SMS interval to the argument, changes nothing else, and replies OK; without one it behaves as `cmdDefault` |
| SmsCmd.CmdMqtt | tracker/SmsCmd.h:240-247 | with two colons it sets both MQTT send intervals, changes nothing else, and replies OK; otherwise it behaves as `cmdDefault` |
| SmsCmd.CmdPhone | tracker/SmsCmd.h:250-257 | with a colon it sets the phone number to the text after it, changes nothing else, and replies OK; otherwise it behaves as `cmdDefault` |
| SmsCmd.CmdMqttOfTwoNumbers | tracker/SmsCmd.h:240-247 | `mqtt:a:b` sets the moving interval to `atoi(a)` and the standing one to `atoi(b)` |
| SmsCmd.Classify | tracker/SmsCmd.h:106-122 | a message selects a command iff its lower-cased text equals that command's keyword exactly |
| SmsCmd.ColonIsUnknown | tracker/SmsCmd.h:106-122 | a message with a colon matches no keyword |
| SmsCmd.KnownHasNoColon | tracker/SmsCmd.h:106-122 | a message that matches a keyword has no colon |
| SmsCmd.Handle | tracker/SmsCmd.h:106-122 | a message with a colon is answered with the help text and changes no option |
| SmsCmd.HandleIsReference | tracker/SmsCmd.h:106-122 | through the dispatcher only "on" and "off" (any letter case) change options, and every message gets the reply of the reference `ReplyText` |
| SmsCmd.Drain | tracker/SmsCmd.h:99-123 | a batch of messages causes exactly two modem events per message |
| SmsCmd.AnyOnSnoc | tracker/SmsCmd.h:106-107 | one more message contains an "on" iff the batch did or the new message is "on" |
| SmsCmd.DrainSnoc | tracker/SmsCmd.h:99-123 | messages are processed in queue order: one more message extends the batch's traffic by its delete and its reply |
| SmsCmd.DrainOptions | tracker/SmsCmd.h:106-122 | after a batch `gsmPower` is what the last on/off set; GSM and GPS are enabled if any message was "on"; every other option, the intervals and phone number included, is unchanged |
| SmsCmd.DrainLogAt | tracker/SmsCmd.h:99-136 | message `i` is deleted before its handler runs and gets exactly one reply, addressed to the configured phone number, not to the sender |
| SmsCmd.DrainLog | tracker/SmsCmd.h:99-136 | the traffic of a batch is, in queue order, each message's delete followed by its one reply |
| SmsCmd.CheckSms | tracker/SmsCmd.h:90-124 | with the modem inactive nothing is deleted or sent and the inbox is untouched. Otherwise the whole inbox is drained: `gsmPower` ends as the last on/off set it, GSM and GPS are enabled if any message was "on", no other option changes, and each message in turn is deleted and then answered once at the configured phone number |
| SmsCmd.HandleClient | tracker/SmsCmd.h:79-87 | the inbox is checked and the gate moves to the current second iff more than the SMS interval has passed (strictly); even an inactive modem moves the gate; the interpreter never saves. A check with the modem active changes the options and sends the traffic that `CheckSms` states |
| SmsCmd.FirstPollAfterStart | tracker/SmsCmd.h:63-87 | with the gate at 0, as the constructor sets it, the first check happens only once the clock is past the SMS interval; before that a call changes nothing |
| SmsCmd.PollAgainTooSoon | tracker/SmsCmd.h:79-87 | a second call within the interval of a check does nothing |
| SmsCmd.UpperCaseOn | tracker/SmsCmd.h:100-107 | "ON" reaches `cmdOn` and is answered "ON -> OK" |
| SmsCmd.AdvertisedGpsIntervalIsRejected | tracker/SmsCmd.h:112-122 | "gps:15", as the help text advertises it, gets the help text and changes nothing |
| SmsCmd.CommandWord | tracker/SmsCmd.h:268-271 | corrected dispatch: the command word is a colon-free prefix of the message that ends at its first colon, or the whole message |
| SmsCmd.HandleByWordWithoutColon | tracker/SmsCmd.h:106-122 | corrected dispatch: on a message without a colon it does exactly what the original dispatch does |
| SmsCmd.KeywordIsLower | tracker/SmsCmd.h:106-118 | every keyword the dispatch compares with is lower case and has no colon |
| SmsCmd.WordSelects | tracker/SmsCmd.h:268-271 | corrected dispatch: a message that starts with a keyword, in any letter case, and a colon selects that keyword's command |
| SmsCmd.HandleByWordReachesHandler | tracker/SmsCmd.h:268-271 | corrected dispatch: a message that starts with a keyword, in any letter case, and a colon reaches the keyword's handler, whatever follows the colon |
| SmsCmd.CmdGpsAfterWord | tracker/SmsCmd.h:214-227 | `cmdGps` on "gps:", in any letter case, and a rest sets the GPS interval to `atoi` of the rest and replies OK |
| SmsCmd.CmdSmsAfterWord | tracker/SmsCmd.h:230-237 | `cmdSms` on "sms:", in any letter case, and a rest sets the SMS interval to `atoi` of the rest and replies OK |
| SmsCmd.CmdPhoneAfterWord | tracker/SmsCmd.h:250-257 | `cmdPhone` on "phone:", in any letter case, and a rest sets the phone number to the rest and replies OK |
| SmsCmd.CmdMqttAfterWord | tracker/SmsCmd.h:240-247 | `cmdMqtt` on "mqtt:a:b", the keyword in any letter case, sets the moving interval to `atoi(a)` and the standing one to `atoi(b)` |
| SmsCmd.CmdMqttAt | tracker/SmsCmd.h:240-247 | with its first two colons at `i` and `j`, `cmdMqtt` reads the fields between them and after the second |
| SmsCmd.ReadStringAfterKeyword | tracker/SmsCmd.h:139-148 | `readValues` on a message that starts with a colon-free word, in any letter case, and a colon returns the text after that colon |
| SmsCmd.HandleByWordSetsGpsInterval | tracker/SmsCmd.h:268 | corrected dispatch: "gps:", in any letter case, and a rest sets the GPS interval to `atoi` of the rest, so "gps:15" and "GPS:15" set it to 15 |
| SmsCmd.HandleByWordSetsSmsInterval | tracker/SmsCmd.h:269 | corrected dispatch: "sms:", in any letter case, and a rest sets the SMS interval to `atoi` of the rest |
| SmsCmd.HandleByWordSetsMqttIntervals | tracker/SmsCmd.h:270 | corrected dispatch: "mqtt:a:b", the keyword in any letter case, sets the moving and standing MQTT intervals to `atoi(a)` and `atoi(b)` |
| SmsCmd.HandleByWordSetsPhone | tracker/SmsCmd.h:271 | corrected dispatch: "phone:", in any letter case, and a rest sets the phone number to the rest |
| Settings.Arg | tracker/WebServer.h:223 | `server.arg` is the argument's value, or empty when absent |
| Settings.GetStringOption | tracker/WebServer.h:211-218 | assigns iff the argument is present, even if it is empty, and reports it |
| Settings.GetLongOption | tracker/WebServer.h:221-230 | assigns `atoi` of the argument iff it is non-empty, and otherwise leaves the option |
| Settings.GetDoubleOption | tracker/WebServer.h:233-242 | assigns `atof` of the argument iff it is non-empty, and otherwise leaves the option |
| Settings.GetBoolOption | tracker/WebServer.h:245-257 | the option becomes true iff the argument is "on"; it reports true iff the argument is non-empty |
| Settings.GetBoolIgnoresOption | tracker/WebServer.h:245-257 | the previous value of a boolean option never matters; an absent argument makes it false |
| Settings.GetOptionIdempotent | tracker/WebServer.h:211-257 | each `GetOption` overload applied twice with the same arguments equals one application |
| Settings.SaveIndex | tracker/WebServer.h:478-501 | every option but `gsmPower` has its place in the save order |
| Settings.SaveOrderIsEveryOptionButPower | tracker/WebServer.h:478-501 | the save request reads 24 options, each once: every option except `gsmPower` |
| Settings.SaveSettings | tracker/WebServer.h:478-501 | saving never changes `gsmPower` |
| Settings.SaveSettingsFollowsRules | tracker/WebServer.h:478-501 | each option read is changed by its type's `GetOption` rule; the option not read is unchanged |
| Settings.SavedFieldFollowsRule | tracker/WebServer.h:478-501 | every option but `gsmPower` is changed by the `GetOption` rule of its type |
| Settings.SaveSettingsIdempotent | tracker/WebServer.h:478-501 | the same arguments saved twice give the options of saving once |
| Settings.HandleSaveSettings | tracker/WebServer.h:471-503 | calls `save()` exactly once, keeps `gsmPower`, and applies each option's rule |
| Settings.FormSlot | tracker/WebServer.h:425-464 | no input of the settings form is for `gsmPower` |
| Settings.SettingsForm | tracker/WebServer.h:425-464 | the form has 25 calls: the `AddBr` at its place and each option's input at its slot |
| Settings.OptionInput | tracker/WebServer.h:425-464 | one `AddOption` call: id, caption, the value as the source formats it, line break and password flag (definition; see `Settings.OptionInputShows`, `OptionInputPasswords`, `OptionInputCheckboxes`) |
| Settings.FormIndex | tracker/WebServer.h:425-464 | every option but `gsmPower` has an input in the form |
| Settings.FormIndexInverse | tracker/WebServer.h:425-464 | each input's option leads back to that input |
| Settings.OptionInputField | tracker/WebServer.h:425-464 | each option's input carries the option's own id |
| Settings.OptionInputShows | tracker/WebServer.h:425-464 | each input shows its option's current value: strings as they are, numbers as `String(long)`, booleans as the checkbox state |
| Settings.OptionInputPasswords | tracker/WebServer.h:426 | `wlanPassword` and `mqttPassword`, and only they, are password fields |
| Settings.OptionInputCheckboxes | tracker/WebServer.h:428 | the boolean options, and only they, are checkboxes |
| Settings.FormMatchesSave | tracker/WebServer.h:425-501 | the form has an input for an option iff the save request reads it, and no option has two inputs |
| Settings.FormFieldsAtIndex | tracker/WebServer.h:425-464 | every input of the form is at its option's place |
| Settings.RenderInput | tracker/WebServer.h:266-287 | rendering one input only appends |
| Settings.Render | tracker/WebServer.h:425-464 | rendering the form only appends |
| Settings.SettingsPage | tracker/WebServer.h:416-466 | the page text: the form's calls rendered in order (definition; see `Settings.SettingsPageShowsValue`) |
| Settings.RenderPrefix | tracker/WebServer.h:425-464 | the rendering of the first calls is the start of the rendering of all of them |
| Settings.RenderStep | tracker/WebServer.h:425-464 | each call appends to the rendering of the calls before it |
| Settings.RenderInputShows | tracker/WebServer.h:266-277 | a text input writes its `value` attribute |
| Settings.RenderShows | tracker/WebServer.h:266-277 | every text input's `value` attribute, as it writes it, is in the rendered text |
| Settings.PageShowsInput | tracker/WebServer.h:425-464 | the page holds the `value` attribute of every option's text input |
| Settings.SettingsPageShowsValue | tracker/WebServer.h:425-464 | the page shows every string option, escaped by `TextToXml`, in `value='…'>` |
| Settings.Submitted | tracker/WebServer.h:266-287 | browser model, not source: a text input submits what `Browser.InputValue` reads from the `value` text the page holds, a checkbox "on" iff checked (definition) |
| Settings.Submit | tracker/WebServer.h:425-464 | browser model, not source: the arguments of the submitted form, one per input, under its id (definition; see `Settings.SubmitLookup`) |
| Settings.SubmitLookup | tracker/WebServer.h:266-287 | a submitted form carries, under an input's id, exactly what that input submits |
| Settings.SubmitWithout | tracker/WebServer.h:266-287 | a form without an input for an option submits nothing under its id |
| Settings.IntToStringIsSubmittable | tracker/WebServer.h:430 | a number's decimal form holds none of `&`, `<`, `>`, `'`, CR, LF |
| Settings.EscapedIsSubmittable | tracker/WebServer.h:173-179 | the escaped form of a value without `'` and line breaks holds none of the characters that do not come back |
| Settings.SubmittedIsSubmittable | tracker/WebServer.h:273 | what a browser reads back for a text value never holds `&`, `<`, `>`, `'`, CR or LF |
| Settings.SubmittedOfSubmittable | tracker/WebServer.h:273 | a value without those characters is read back exactly |
| Settings.SavedText | tracker/WebServer.h:425-501 | a string option is saved as what the browser reads from its `value` attribute |
| Settings.FormArg | tracker/WebServer.h:425-464 | the submitted settings form carries under each id what that option's input submits |
| Settings.TextRoundTrip | tracker/WebServer.h:425-501 | a string option free of `&`, `<`, `>`, `'`, CR and LF comes back unchanged when the form is saved |
| Settings.TextRoundTripIff | tracker/WebServer.h:425-501 | a string option comes back unchanged iff it is free of `&`, `<`, `>`, `'`, CR and LF |
| Settings.NumRoundTrip | tracker/WebServer.h:425-501 | every integer option comes back unchanged when the form is saved |
| Settings.FlagRoundTrip | tracker/WebServer.h:425-501 | every boolean option comes back unchanged when the form is saved |
| Settings.SaveSettingsIncludes | tracker/WebServer.h:478-501 | every option but `gsmPower` is read by the save request |
| Settings.FormRoundTrip | tracker/WebServer.h:425-501 | saving the submitted settings form gives back every option except the voltage, as long as the strings have no `&`, `<`, `>`, `'`, CR, LF |
| Settings.ApostropheCutsValue | tracker/WebServer.h:273 | as written: a string option with a `'` is saved as its text before the first `'`, and so never comes back unchanged |
| Settings.ApostropheExample | tracker/WebServer.h:273 | as written: a WLAN name "Bob's" is saved as "Bob" |
| Settings.AmpersandIsCorrupted | tracker/WebServer.h:173-179 | as written: a string option without `'` and line breaks is saved as `TextToXml` wrote it, so one with `&`, `<` or `>` never comes back unchanged |
| WebServer.MainToggle | tracker/WebServer.h:347-352 | flips `gsmPower` and saves iff argument "o" is exactly "1"; changes nothing else |
| WebServer.ToggleTwiceRestores | tracker/WebServer.h:347-352 | two toggles restore the options, with two saves |
| WebServer.MeasurementRows | tracker/WebServer.h:355-371 | the rows of the main table in order, with the value of the "Pressure" row as a parameter (definition; see `WebServer.PressureRow`) |
| WebServer.MainRowsAsWritten | tracker/WebServer.h:355-371 | the rows as written: the "Pressure" row gets the temperature (definition; see `WebServer.PressureRowShowsTemperature`) |
| WebServer.MainRows | tracker/WebServer.h:361 | corrected half of the finding: the "Pressure" row gets the pressure (definition; see `WebServer.MainRowsShowPressure`) |
| WebServer.PressureRow | tracker/WebServer.h:355-371 | the main table has exactly one "Pressure" row, fourth or fifth, showing the value given for it |
| WebServer.MainRowsShowPressure | tracker/WebServer.h:361 | in the corrected table the "Pressure" row shows the pressure |
| WebServer.PressureRowShowsTemperature | tracker/WebServer.h:361 | as written, the "Pressure" row shows the temperature, and the table differs from the corrected one |
| WebServer.RenderRows | tracker/WebServer.h:354-372 | rendering the rows only appends, and opens six tags per row with a value |
| WebServer.Banner | tracker/WebServer.h:374-383 | the ON/OFF display shows "ON" iff the switch is on |
| WebServer.BannerTellsState | tracker/WebServer.h:374-383 | the two states give different banners, so the banner tells the switch state |
| WebServer.Table | tracker/WebServer.h:354-372 | the table start, one `AddTableTr` per row and the table end (definition) |
| WebServer.TableTags | tracker/WebServer.h:354-372 | a table starts with the table start, ends with the table end, and opens one tag for each of these plus six per row with a value |
| WebServer.RenderRowsPrefix | tracker/WebServer.h:354-372 | rows are written in order: the rendering of the first rows followed by the next row starts the rendering of all of them |
| WebServer.RenderRowsShows | tracker/WebServer.h:194-202 | every row with a value appears in the rendered text as `AddTableTr` writes it |
| WebServer.TableShows | tracker/WebServer.h:354-372 | every row with a value appears in the table |
| WebServer.MainTable | tracker/WebServer.h:354-372 | the table of the rows as written: table start, table end, and six tags per measurement with a value |
| WebServer.MainTableShows | tracker/WebServer.h:355-371 | every measurement row with a value, as written, is on the page |
| WebServer.MainTableShowsTemperatureAsPressure | tracker/WebServer.h:361 | the page sent has a "Pressure" row that shows the temperature |
| WebServer.MainInfo | tracker/WebServer.h:340-386 | the toggle runs first, the page starts with the table of the rows as written, and it ends with the display of the switch as toggled |
| WebServer.Extension | tracker/WebServer.h:298-308 | each checked extension starts with a dot |
| WebServer.TypeOf | tracker/WebServer.h:298-308 | no extension selects the download type |
| WebServer.TypeFrom | tracker/WebServer.h:298-308 | the extension chain never gives the download type |
| WebServer.ExtensionByTail | tracker/WebServer.h:298-308 | a recognised tail names one of the 11 extensions |
| WebServer.ExtensionTailsDiffer | tracker/WebServer.h:298-308 | the last three characters of each extension identify it |
| WebServer.OneExtensionAtMost | tracker/WebServer.h:298-308 | no path ends with two of the extensions |
| WebServer.SameTail | tracker/WebServer.h:298-308 | a path ending with an extension has the same last three characters |
| WebServer.TypeOfAnyExtension | tracker/WebServer.h:298-308 | any extension the path ends with selects its type, whatever the order of the checks |
| WebServer.TypeOfNoExtension | tracker/WebServer.h:294 | a path with none of the extensions is text/plain |
| WebServer.DirectoryIsNotSource | tracker/WebServer.h:295-297 | a directory path does not end with ".src" |
| WebServer.IndexPage | tracker/WebServer.h:295-299 | a directory's "index.htm" is served as text/html |
| WebServer.SourceDot | tracker/WebServer.h:297 | the last dot of a ".src" path is that of its suffix |
| WebServer.MapPath | tracker/WebServer.h:294-308 | "/" becomes "index.htm" as text/html; ".src" is stripped, 4 characters, as text/plain; any other path is served as it is, with the type of the extension it ends with, or text/plain with none; the type is never the download type |
| WebServer.LoadFromSpiffs | tracker/WebServer.h:310-314 | a file is served iff the mapped path exists; it is served as octet-stream iff the request has "download" |
| Browser.Before | tracker/WebServer.h:273 | browser model: the value of a `'`-quoted attribute is the prefix before the first `'`, with no `'` in it |
| Browser.BeforeAppend | tracker/WebServer.h:273 | browser model: text after the closing quote does not matter; a value without a quote runs on into what follows |
| Browser.BeforeIsPrefix | tracker/WebServer.h:273 | browser model: the value is the text up to the index of the first `'`, or all of it |
| Browser.Decode | tracker/WebServer.h:273 | browser model: decoding of `&amp;`, `&lt;`, `&gt;` and `&#39;` (definition) |
| Browser.DecodeWithoutAmpersand | tracker/WebServer.h:273 | browser model: a text without `&` decodes to itself |
| Browser.StripNewlines | tracker/WebServer.h:273 | browser model: a text input's value loses its CR and LF and nothing else |
| Browser.StripNewlinesAppend | tracker/WebServer.h:273 | browser model: stripping works piece by piece, so with the contract of `StripNewlines` every other character is kept in order |
| Browser.InputValue | tracker/WebServer.h:273 | browser model: the submitted value never holds CR or LF |
| Browser.DecodeEscapedChar | tracker/WebServer.h:273 | decoding undoes the corrected escape of one character |
| Browser.DecodeAttrEscape | tracker/WebServer.h:273 | decoding undoes the corrected escaping of any text |
| Browser.CorrectedValueRoundTrip | tracker/WebServer.h:273 | corrected half of the findings: with `Html.AttrEscape`, a browser reads back exactly the value written, for every value without a line break |

## Left out

- Network, WiFi, DNS, the HTTP server and every `server.send`: the arguments are a map, and pages are returned as strings.
- Duplicate URL arguments: a map keeps one value per name.
- SPIFFS streaming, OTA and restart: only the path and type mapping of `loadFromSpiffs` is modelled. Its result does not depend on whether `streamFile` sent the whole file.
- The modem driver: `getSMS`, `deleteSMS` and `sendSMS` become an input sequence and a log of events. The `SmsData` phone number of the sender is kept but never used, as in the code.
- The clock: `millis() / 1000` is the `currSec` parameter. The wrap-around of `millis()` after about 49 days is not modelled.
- SmsCmd.HandleClient: the subtraction `currSec - smsLastCheckSec` is on unbounded integers, not C `long`.
- Floating point: `atof` and `String(double, n)` are function parameters. The voltage option therefore has no round trip through the form (Settings.FormRoundTrip excludes it), and the status report's number formats are whatever the formatter gives.
- SmsCmd.StatusText: only the start of the report is stated; the rest of its wording follows the code line by line.
- SmsCmd.StatusText: in the temperature line of tracker/SmsCmd.h:202 the unit's degree sign is stored as the Unicode replacement character; the model assumes "°" (U+00B0) was meant. No contract depends on it.
- Str.Atoi: overflow of C `atoi` is undefined and not modelled; values are unbounded.
- The `HtmlTag` fieldset and legend wrappers of the settings page: their class is not part of this model, so the form is rendered without them.
- The early returns when `myOptions` or `myData` is null: the model always has options and telemetry.
- `handleLoadInfoInfo`, `handleLoadConsoleInfo`, `MyDbg` logging and what `save()` writes: device queries, a console class that is not part of this model, and persistence. Saves are only counted.
- The `%26`/`%3C`/`%3E` escaping of form values is modelled as written.
- Browser: only the parts of HTML parsing that the written values reach are modelled. These are the end of a `'`-quoted value, the four character references above, and the removal of CR and LF from text inputs. A NUL character, which a parser replaces, is not modelled.
- Browser: text after a `'` inside a value is parsed as further attributes of the input. If it contains, say, `disabled`, the input would not be submitted at all. The model ignores these attributes and always submits the cut value.

## Findings

| source | as written | input that shows it | evidently intended | confidence | as-written member | corrected member |
|---|---|---|---|---|---|---|
| tracker/WebServer.h:273 | a text value is written inside `value='…'` through `TextToXml`, which does not escape `'`, so the quote ends the attribute | a WLAN name "Bob's" is saved back as "Bob" when the settings form is submitted | the page shows, and the form resubmits, the stored value | not executed; high that the value is cut, medium that it was unintended | Settings.ApostropheCutsValue | Browser.CorrectedValueRoundTrip |
| tracker/WebServer.h:173-179 | `TextToXml` writes `&`, `<` and `>` as the URL escapes `%26`, `%3C`, `%3E`, which HTML does not decode | a WLAN name "a&b" is saved back as "a%26b" | HTML escapes (`&amp;`, `&lt;`, `&gt;`), which a browser decodes back to the value | not executed; medium | Settings.AmpersandIsCorrupted | Browser.CorrectedValueRoundTrip |
| tracker/SmsCmd.h:106-122 | the dispatch compares the whole lower-cased message with each keyword, so a message with an argument matches none | "gps:15", which the help text at tracker/SmsCmd.h:268 advertises, is answered with the help text and leaves the GPS interval unchanged | the command is selected by the word before the first colon, so that the argument branches of `cmdGps`, `cmdSms`, `cmdMqtt` and `cmdPhone` are reachable | not executed; high that the advertised forms are rejected | SmsCmd.AdvertisedGpsIntervalIsRejected | SmsCmd.HandleByWordSetsGpsInterval |
| tracker/WebServer.h:361 | the "Pressure" row of the main page is filled with `myData->temperature` | any reading where temperature and pressure format differently, e.g. 21.5 °C and 1013.2 hPa | the row shows `myData->pressure` | not executed | WebServer.PressureRowShowsTemperature | WebServer.MainRowsShowPressure |

=== FILE: browser.dfy ===
/**
 What a browser does with the `value` attribute of a text input when it
 submits the settings form. This is the web server's environment, not its
 code: a single-quoted attribute value ends at the first `'`, character
 references in it are decoded, and the value of a text or password input
 loses its carriage returns and line feeds (the value sanitization of
 HTML text inputs).
 */
module Browser {
  import opened Str
  import Html

  /** The text before the first `c`: where a quoted attribute value ends. */
  function Before(s: string, c: char): (r: string)
    ensures r <= s && c !in r
    ensures |r| < |s| ==> s[|r|] == c
  {
    if s == [] || s[0] == c then [] else [s[0]] + Before(s[1..], c)
  }

  /** Text after the end of the value does not matter; a value without the
      quote runs on into what follows. */
  lemma {:induction false} BeforeAppend(a: string, b: string, c: char)
    ensures Before(a + b, c) == if c in a then Before(a, c) else a + Before(b, c)
  {
    if a == [] {
      assert a + b == b;
    } else {
      assert (a + b)[0] == a[0];
      assert (a + b)[1..] == a[1..] + b;
      BeforeAppend(a[1..], b, c);
      assert c in a <==> a[0] == c || c in a[1..];
    }
  }

  /** The text before the first `c` is the prefix up to the index of `c`,
      or all of it when there is none. */
  lemma BeforeIsPrefix(s: string, c: char)
    ensures IndexOf(s, c).Some? ==> Before(s, c) == s[..IndexOf(s, c).value]
    ensures IndexOf(s, c).None? ==> Before(s, c) == s
  {
    var r := Before(s, c);
    match IndexOf(s, c)
    case Some(i) =>
      assert r == s[..|r|];
    case None =>
  }

  /** Decoding of the character references `&amp;`, `&lt;`, `&gt;` and
      `&#39;`. Every other `&` is left as it stands, which agrees with a
      browser's full decoding on the texts given to it here: those hold no
      `&` at all, or only the ones that start these four references. */
  function Decode(s: string): string
    decreases |s|
  {
    if s == [] then []
    else if "&amp;" <= s then ['&'] + Decode(s[5..])
    else if "&lt;" <= s then ['<'] + Decode(s[4..])
    else if "&gt;" <= s then ['>'] + Decode(s[4..])
    else if "&#39;" <= s then ['\''] + Decode(s[5..])
    else [s[0]] + Decode(s[1..])
  }

  /** A text without `&` holds no reference and decodes to itself. */
  lemma {:induction false} DecodeWithoutAmpersand(s: string)
    requires '&' !in s
    ensures Decode(s) == s
    decreases |s|
  {
    if s != [] {
      assert s[0] != '&';
      assert '&' !in s[1..];
      DecodeWithoutAmpersand(s[1..]);
    }
  }

  /** The value with every carriage return and line feed removed. */
  function StripNewlines(s: string): (r: string)
    ensures '\r' !in r && '\n' !in r
    ensures forall c :: c in r ==> c in s
    ensures '\r' !in s && '\n' !in s ==> r == s
  {
    if s == [] then []
    else
      var rest := StripNewlines(s[1..]);
      assert forall c :: c in s[1..] ==> c in s;
      if s[0] == '\r' || s[0] == '\n' then rest
      else
        assert s == [s[0]] + s[1..];
        [s[0]] + rest
  }

  /** Removing line breaks works piece by piece, so every character other
      than CR and LF is kept, in order: with the contract of
      `StripNewlines` this fixes the result on every input. */
  lemma {:induction false} StripNewlinesAppend(a: string, b: string)
    ensures StripNewlines(a + b) == StripNewlines(a) + StripNewlines(b)
  {
    if a == [] {
      assert a + b == b;
    } else {
      assert (a + b)[0] == a[0];
      assert (a + b)[1..] == a[1..] + b;
      StripNewlinesAppend(a[1..], b);
    }
  }

  /** The value a browser submits for a text input whose `value` attribute
      opens with `'` and continues with `written`. */
  function InputValue(written: string): (r: string)
    ensures '\r' !in r && '\n' !in r
  {
    StripNewlines(Decode(Before(written, '\'')))
  }

  /** Decoding undoes the escaping of one character in front of any text. */
  lemma DecodeEscapedChar(c: char, t: string)
    ensures Decode(Html.AttrEscapeChar(c) + t) == [c] + Decode(t)
  {
    var e := Html.AttrEscapeChar(c) + t;
    if c == '&' {
      assert e[..5] == "&amp;" && e[5..] == t;
    } else if c == '<' {
      assert e[..4] == "&lt;" && e[4..] == t;
      assert !("&amp;" <= e) by { assert e[1] == 'l'; }
    } else if c == '>' {
      assert e[..4] == "&gt;" && e[4..] == t;
      assert !("&amp;" <= e) && !("&lt;" <= e) by { assert e[1] == 'g'; }
    } else if c == '\'' {
      assert e[..5] == "&#39;" && e[5..] == t;
      assert !("&amp;" <= e) && !("&lt;" <= e) && !("&gt;" <= e) by { assert e[1] == '#'; }
    } else {
      assert e[0] == c && e[1..] == t;
    }
  }

  /** Decoding undoes the corrected escaping. */
  lemma {:induction false} DecodeAttrEscape(s: string)
    ensures Decode(Html.AttrEscape(s)) == s
  {
    if s != [] {
      DecodeEscapedChar(s[0], Html.AttrEscape(s[1..]));
      DecodeAttrEscape(s[1..]);
      assert s == [s[0]] + s[1..];
    }
  }

  /** With the corrected escaping, a browser submits exactly the value the
      page was given, for every value a text input can hold. */
  lemma CorrectedValueRoundTrip(v: string)
    requires '\r' !in v && '\n' !in v
    ensures InputValue(Html.AttrEscape(v) + "'>") == v
  {
    var e := Html.AttrEscape(v);
    BeforeAppend(e, "'>", '\'');
    assert Before("'>", '\'') == [];
    assert e + [] == e;
    DecodeAttrEscape(v);
  }
}

=== FILE: html.dfy ===
/**
 The HTML text helpers of the web server: the special-character escaping
 `TextToXml`, the append-only table helpers and the two `AddOption`
 renderers of the settings page. Every helper takes the page built so far
 and returns it with text appended.
 */
module Html {
  import opened Str

  /** The three characters `TextToXml` rewrites. */
  predicate IsSpecial(c: char) {
    c == '&' || c == '<' || c == '>'
  }

  predicate Plain(s: string) {
    '&' !in s && '<' !in s && '>' !in s
  }

  function SpecialCount(s: string): nat {
    Count(s, '&') + Count(s, '<') + Count(s, '>')
  }

  lemma PlainIffNoSpecials(s: string)
    ensures Plain(s) <==> SpecialCount(s) == 0
  {
    CountZeroIffAbsent(s, '&');
    CountZeroIffAbsent(s, '<');
    CountZeroIffAbsent(s, '>');
  }

  /** Reference escaping of one character. */
  function EscapeChar(c: char): (r: string)
    ensures SpecialCount(r) == 0
    ensures |r| == 1 + 2 * SpecialCount([c])
    ensures !IsSpecial(c) ==> r == [c]
  {
    var r := if c == '&' then "%26" else if c == '<' then "%3C" else if c == '>' then "%3E" else [c];
    PlainIffNoSpecials(r);
    assert [c][1..] == [];
    r
  }

  /** Reference escaping of a string, one character at a time. */
  function Escape(s: string): (r: string)
    ensures SpecialCount(r) == 0
    ensures |r| == |s| + 2 * SpecialCount(s)
    ensures SpecialCount(s) == 0 ==> r == s
  {
    if s == [] then []
    else
      var e, rest := EscapeChar(s[0]), Escape(s[1..]);
      CountAppend(e, rest, '&');
      CountAppend(e, rest, '<');
      CountAppend(e, rest, '>');
      assert s == [s[0]] + s[1..];
      CountAppend([s[0]], s[1..], '&');
      CountAppend([s[0]], s[1..], '<');
      CountAppend([s[0]], s[1..], '>');
      e + rest
  }

  /** Escaping adds only `%`, `2`, `6`, `3`, `C` and `E`: any other
      character of the result comes from the input. */
  lemma {:induction false} EscapeKeepsOthers(s: string)
    ensures forall c :: c in Escape(s) && c !in "%263CE" ==> c in s
  {
    if s != [] {
      EscapeKeepsOthers(s[1..]);
      var e := EscapeChar(s[0]);
      assert Escape(s) == e + Escape(s[1..]);
      assert forall c :: c in e && c !in "%263CE" ==> c == s[0];
      assert forall c :: c in s[1..] ==> c in s;
    }
  }

  /** Arduino `String::replace(find, replace)` for a one-character `find`:
      every occurrence, left to right. */
  function ReplaceAll(s: string, c: char, rep: string): string {
    if s == [] then []
    else (if s[0] == c then rep else [s[0]]) + ReplaceAll(s[1..], c, rep)
  }

  lemma {:induction false} ReplaceAllAppend(a: string, b: string, c: char, rep: string)
    ensures ReplaceAll(a + b, c, rep) == ReplaceAll(a, c, rep) + ReplaceAll(b, c, rep)
  {
    if a == [] {
      assert a + b == b;
    } else {
      assert (a + b)[0] == a[0];
      assert (a + b)[1..] == a[1..] + b;
      ReplaceAllAppend(a[1..], b, c, rep);
    }
  }

  lemma {:induction false} ReplaceAllAbsent(s: string, c: char, rep: string)
    requires c !in s
    ensures ReplaceAll(s, c, rep) == s
  {
    if s != [] {
      assert c !in s[1..];
      ReplaceAllAbsent(s[1..], c, rep);
    }
  }

  /** The three replacements of `TextToXml`, in the source's order. */
  function ReplaceSpecials(s: string): string {
    ReplaceAll(ReplaceAll(ReplaceAll(s, '&', "%26"), '<', "%3C"), '>', "%3E")
  }

  lemma ReplaceSpecialsOfChar(c: char)
    ensures ReplaceSpecials([c]) == EscapeChar(c)
  {
    assert [c][1..] == [];
    var a := ReplaceAll([c], '&', "%26");
    assert a == (if c == '&' then "%26" else [c]) + ReplaceAll([], '&', "%26");
    var b := ReplaceAll(a, '<', "%3C");
    if c == '&' {
      ReplaceAllAbsent(a, '<', "%3C");
      ReplaceAllAbsent(b, '>', "%3E");
    } else {
      assert b == (if c == '<' then "%3C" else [c]) + ReplaceAll([], '<', "%3C");
      if c == '<' {
        ReplaceAllAbsent(b, '>', "%3E");
      } else {
        assert ReplaceAll(b, '>', "%3E") == (if c == '>' then "%3E" else [c]) + ReplaceAll([], '>', "%3E");
      }
    }
  }

  /** Replacing the specials one kind after the other is the same as
      escaping character by character: no replacement introduces a special
      character that a later one would rewrite again. */
  lemma {:induction false} ReplaceSpecialsIsEscape(s: string)
    ensures ReplaceSpecials(s) == Escape(s)
  {
    if s != [] {
      var c, t := s[0], s[1..];
      assert s == [c] + t;
      ReplaceAllAppend([c], t, '&', "%26");
      ReplaceAllAppend(ReplaceAll([c], '&', "%26"), ReplaceAll(t, '&', "%26"), '<', "%3C");
      ReplaceAllAppend(ReplaceAll(ReplaceAll([c], '&', "%26"), '<', "%3C"),
                       ReplaceAll(ReplaceAll(t, '&', "%26"), '<', "%3C"), '>', "%3E");
      assert ReplaceSpecials(s) == ReplaceSpecials([c]) + ReplaceSpecials(t);
      ReplaceSpecialsOfChar(c);
      ReplaceSpecialsIsEscape(t);
    }
  }

  /** `MyWebServer::TextToXml`: `&`, `<` and `>` become `%26`, `%3C` and
      `%3E`. The result holds none of the three, plain text comes back
      unchanged, and each special character costs two extra characters. */
  function TextToXml(data: string): (r: string)
    ensures r == Escape(data)
    ensures Plain(r)
    ensures |r| == |data| + 2 * SpecialCount(data)
    ensures Plain(data) ==> r == data
  {
    ReplaceSpecialsIsEscape(data);
    PlainIffNoSpecials(data);
    PlainIffNoSpecials(Escape(data));
    ReplaceSpecials(data)
  }

  lemma TextToXmlIdempotent(s: string)
    ensures TextToXml(TextToXml(s)) == TextToXml(s)
  {
    var once := TextToXml(s);
    assert Plain(once);
  }

  const TableBegin := "<table style='width:100%'>"
  const EmptyRow := "<tr><th></th><td>&nbsp;</td></tr>"
  const TableEnd := "</table>"
  const Br := "<br />"

  const RowOpen := "<tr><th>"
  const RowMiddle := "</th><td>"
  const RowClose := "</td></tr>"

  /** The row `AddTableTr(info, name, value)` appends for a non-empty value. */
  function Row(name: string, value: string): string {
    RowOpen + TextToXml(name) + RowMiddle + TextToXml(value) + RowClose
  }

  lemma RowOpenTags()
    ensures Count(RowOpen, '<') == 2
  {
  }

  lemma RowMiddleTags()
    ensures Count(RowMiddle, '<') == 2
  {
  }

  lemma RowCloseTags()
    ensures Count(RowClose, '<') == 2
  {
  }

  /** A row opens exactly six tags, whatever the name and value contain:
      escaped text cannot open one. */
  lemma RowOpensSixTags(name: string, value: string)
    ensures Count(Row(name, value), '<') == 6
  {
    var a, b := TextToXml(name), TextToXml(value);
    CountZeroIffAbsent(a, '<');
    CountZeroIffAbsent(b, '<');
    RowOpenTags();
    RowMiddleTags();
    RowCloseTags();
    var s1 := RowOpen + a;
    var s2 := s1 + RowMiddle;
    var s3 := s2 + b;
    CountAppend(RowOpen, a, '<');
    CountAppend(s1, RowMiddle, '<');
    CountAppend(s2, b, '<');
    CountAppend(s3, RowClose, '<');
  }

  /** `AddTableBegin`. */
  function AddTableBegin(info: string): (r: string)
    ensures info <= r && r[|info|..] == TableBegin
  {
    info + TableBegin
  }

  /** `AddTableTr(info)`: a row with no data. */
  function AddEmptyTableTr(info: string): (r: string)
    ensures info <= r && r[|info|..] == EmptyRow
  {
    info + EmptyRow
  }

  /** `AddTableTr(info, name, value)`: nothing for an empty value, otherwise
      one row whose cells hold the escaped name and value. The appended text
      always opens exactly six tags, whatever the name and value contain. */
  function AddTableTr(info: string, name: string, value: string): (r: string)
    ensures info <= r
    ensures value == "" <==> r == info
    ensures value != "" ==> r[|info|..] == Row(name, value)
    ensures Count(r[|info|..], '<') == if value == "" then 0 else 6
  {
    if value != "" then
      RowOpensSixTags(name, value);
      var row := Row(name, value);
      assert |row| > 0;
      assert (info + row)[|info|..] == row;
      info + row
    else
      assert info[|info|..] == [];
      info
  }

  /** `AddTableEnd`. */
  function AddTableEnd(info: string): (r: string)
    ensures info <= r && r[|info|..] == TableEnd
  {
    info + TableEnd
  }

  /** `AddBr`. */
  function AddBr(info: string): (r: string)
    ensures info <= r && r[|info|..] == Br
  {
    info + Br
  }

  /** `s` holds `t` starting at position `k`. */
  predicate At(s: string, k: nat, t: string) {
    k + |t| <= |s| && s[k..k + |t|] == t
  }

  /** What both forms of `AddOption` append: a fixed head `p`, an optional
      attribute `a`, the rest of the element, and an optional line break. */
  function WithOptional(p: string, a: string, rest: string, present: bool, addBr: bool): string {
    (if present then p + a + rest else p + rest) + (if addBr then Br else "")
  }

  /** The optional attribute can be told apart from its absence by looking
      right after the head, and the line break by looking at the end, as
      long as the rest of the element neither starts like the attribute nor
      ends like a line break. */
  lemma WithOptionalShape(p: string, a: string, rest: string, present: bool, addBr: bool)
    requires |a| > 0 && |rest| >= 2 && rest[0] != a[0] && rest[|rest| - 2] != '/'
    ensures p <= WithOptional(p, a, rest, present, addBr)
    ensures present <==> At(WithOptional(p, a, rest, present, addBr), |p|, a)
    ensures addBr <==> EndsWith(WithOptional(p, a, rest, present, addBr), Br)
  {
    var body := if present then p + a + rest else p + rest;
    var r := WithOptional(p, a, rest, present, addBr);
    assert r == body + (if addBr then Br else "");
    assert body[..|p|] == p;
    if present {
      assert r[|p|..|p| + |a|] == a;
    } else if |p| + |a| <= |r| {
      assert r[|p|..|p| + |a|][0] == rest[0];
    }
    assert body[|body| - 2] == rest[|rest| - 2];
    if addBr {
      assert r[|r| - |Br|..] == Br;
    } else if |Br| <= |r| {
      assert r[|r| - |Br|..][4] == rest[|rest| - 2];
    }
  }

  const PasswordAttr := " type='password' "
  const CheckedAttr := " checked"

  /** What the text-input form of `AddOption` writes before its optional
      password attribute. */
  function TextOptionHead(id: string, name: string): string {
    "<b>" + TextToXml(name) + "</b>" + "<input id='" + id + "' name='" + id + "' "
  }

  const ValueOpen := "placeholder='' value='"

  /** What follows the opening quote of the `value` attribute: the escaped
      value, the closing quote and the end of the element. */
  function ValueText(value: string): (r: string)
    ensures EndsWith(r, "'>")
  {
    var r := TextToXml(value) + "'>";
    assert r[|r| - 2..] == "'>";
    r
  }

  /** What it writes after the password attribute, up to the line break.
      Its first and last characters are stated so that the optional password
      attribute before it and line break after it can be told apart from it;
      what it shows is stated by `AddTextOptionShowsValue`. */
  function TextOptionTail(value: string): (r: string)
    ensures |r| >= 2 && r[0] == 'p' && r[|r| - 2] == '\'' && r[|r| - 1] == '>'
  {
    ValueOpen + ValueText(value)
  }

  /** What the checkbox form of `AddOption` writes before its optional
      `checked` attribute. */
  function CheckboxHead(id: string): string {
    "<input style='width:auto;' id='" + id + "' name='" + id + "' type='checkbox' "
  }

  /** What it writes after the `checked` attribute, up to the line break.
      Its first and last characters are stated so that the optional
      `checked` attribute before it and line break after it can be told
      apart from it. */
  function CheckboxTail(name: string): (r: string)
    ensures |r| >= 2 && r[0] == '>' && r[|r| - 2] == 'b' && r[|r| - 1] == '>'
  {
    "><b>" + TextToXml(name) + "</b>"
  }

  /** `AddOption(info, id, name, value, addBr, isPassword)` for a text input:
      the input is a password field exactly when `isPassword`, and the line
      break follows exactly when `addBr`. */
  function AddTextOption(info: string, id: string, name: string, value: string,
                         addBr: bool, isPassword: bool): (r: string)
    ensures info + TextOptionHead(id, name) <= r
    ensures isPassword <==> At(r, |info| + |TextOptionHead(id, name)|, PasswordAttr)
    ensures addBr <==> EndsWith(r, Br)
  {
    var p, tail := info + TextOptionHead(id, name), TextOptionTail(value);
    WithOptionalShape(p, PasswordAttr, tail, isPassword, addBr);
    WithOptional(p, PasswordAttr, tail, isPassword, addBr)
  }

  /** `AddOption(info, id, name, value, addBr)` for a checkbox: it is
      rendered `checked` exactly when `value`, and the line break follows
      exactly when `addBr`. */
  function AddCheckboxOption(info: string, id: string, name: string, value: bool,
                             addBr: bool): (r: string)
    ensures info + CheckboxHead(id) <= r
    ensures value <==> At(r, |info| + |CheckboxHead(id)|, CheckedAttr)
    ensures addBr <==> EndsWith(r, Br)
  {
    var p, tail := info + CheckboxHead(id), CheckboxTail(name);
    WithOptionalShape(p, CheckedAttr, tail, value, addBr);
    WithOptional(p, CheckedAttr, tail, value, addBr)
  }

  /** A text that occurs in `s` at position `i` also occurs there in any
      longer text starting with `s`. */
  lemma AtInLonger(s: string, t: string, i: nat, longer: string)
    requires At(s, i, t) && s <= longer
    ensures At(longer, i, t)
  {
    assert longer[i..i + |t|] == s[i..i + |t|];
  }

  /** What was appended to `info` occurs right after it. */
  lemma AppendedAt(info: string, r: string, t: string)
    requires info <= r && r[|info|..] == t
    ensures At(r, |info|, t)
  {
    assert r[|info|..|info| + |t|] == r[|info|..];
  }

  /** The rest of the element is in what `WithOptional` appends. */
  lemma WithOptionalHoldsRest(p: string, a: string, rest: string, present: bool, addBr: bool)
    ensures exists i :: |p| <= i && At(WithOptional(p, a, rest, present, addBr), i, rest)
  {
    var body := if present then p + a + rest else p + rest;
    var i := |body| - |rest|;
    assert body[i..] == rest;
    assert At(body, i, rest);
    AtInLonger(body, rest, i, WithOptional(p, a, rest, present, addBr));
  }

  /** The text input's `value` attribute, as written, is on the page after
      what came before. */
  lemma AddTextOptionShowsValue(info: string, id: string, name: string, value: string,
                                addBr: bool, isPassword: bool)
    ensures exists i :: |info| <= i && At(AddTextOption(info, id, name, value, addBr, isPassword), i, TextOptionTail(value))
  {
    var p, tail := info + TextOptionHead(id, name), TextOptionTail(value);
    assert AddTextOption(info, id, name, value, addBr, isPassword) == WithOptional(p, PasswordAttr, tail, isPassword, addBr);
    WithOptionalHoldsRest(p, PasswordAttr, tail, isPassword, addBr);
  }

  // ---------------------------------------------------------------------
  // Escaping for a single-quoted attribute
  // ---------------------------------------------------------------------

  /** The character reference for each character that cannot stand as it
      is inside a single-quoted attribute value. */
  function AttrEscapeChar(c: char): (r: string)
    ensures '\'' !in r
  {
    if c == '&' then "&amp;"
    else if c == '<' then "&lt;"
    else if c == '>' then "&gt;"
    else if c == '\'' then "&#39;"
    else [c]
  }

  /** The escaping `TextToXml` evidently should apply to a value written
      into `value='…'`: HTML character references, the quote included, so
      that a browser reads back the value as it was. */
  function AttrEscape(s: string): (r: string)
    ensures '\'' !in r
  {
    if s == [] then [] else AttrEscapeChar(s[0]) + AttrEscape(s[1..])
  }
}

=== FILE: options.dfy ===
/**
 The option record (`MyOptions`) that the SMS interpreter and the web server
 both read and change, the telemetry record (`MyData`) they only read, and
 the persisted store that counts calls of `save()`.
 */
module Options {

  /** The configuration shared by both transports. `long` options are
      unbounded integers; `powerSaveModeVoltage` is a `double` in the source
      and is kept as an opaque `real`. */
  datatype Options = Options(
    gsmPower: bool,
    wlanAP: string,
    wlanPassword: string,
    gprsAP: string,
    isDebugActive: bool,
    bme280CheckIntervalSec: int,
    isGsmEnabled: bool,
    isGpsEnabled: bool,
    gpsCheckIntervalSec: int,
    phoneNumber: string,
    smsCheckIntervalSec: int,
    isDeepSleepEnabled: bool,
    powerSaveModeVoltage: real,
    powerCheckIntervalSec: int,
    wakeTimeSec: int,
    deepSleepTimeSec: int,
    isMqttEnabled: bool,
    mqttName: string,
    mqttServer: string,
    mqttPort: int,
    mqttUser: string,
    mqttPassword: string,
    mqttReconnectIntervalSec: int,
    mqttSendOnMoveEverySec: int,
    mqttSendOnNonMoveEverySec: int)

  /** One tag per option, so that statements about "every option but these"
      can be written once. */
  datatype Field =
    | GsmPower
    | WlanAP | WlanPassword | GprsAP | IsDebugActive
    | Bme280CheckIntervalSec | IsGsmEnabled | IsGpsEnabled | GpsCheckIntervalSec
    | PhoneNumber | SmsCheckIntervalSec
    | IsDeepSleepEnabled | PowerSaveModeVoltage | PowerCheckIntervalSec
    | WakeTimeSec | DeepSleepTimeSec
    | IsMqttEnabled | MqttName | MqttServer | MqttPort | MqttUser | MqttPassword
    | MqttReconnectIntervalSec | MqttSendOnMoveEverySec | MqttSendOnNonMoveEverySec

  /** The C++ type of an option's member. */
  datatype Kind = StringKind | LongKind | DoubleKind | BoolKind

  datatype Value = Text(s: string) | Num(n: int) | Volt(x: real) | Flag(b: bool)
  {
    function KindOf(): Kind {
      match this
      case Text(_) => StringKind
      case Num(_) => LongKind
      case Volt(_) => DoubleKind
      case Flag(_) => BoolKind
    }
  }

  function KindOfField(f: Field): Kind {
    match f
    case WlanAP | WlanPassword | GprsAP | PhoneNumber
      | MqttName | MqttServer | MqttUser | MqttPassword => StringKind
    case PowerSaveModeVoltage => DoubleKind
    case GsmPower | IsDebugActive | IsGsmEnabled | IsGpsEnabled
      | IsDeepSleepEnabled | IsMqttEnabled => BoolKind
    case _ => LongKind
  }

  /** The option's member name, which is also the form id of every option the
      settings page shows. */
  function Id(f: Field): string {
    match f
    case GsmPower => "gsmPower"
    case WlanAP => "wlanAP"
    case WlanPassword => "wlanPassword"
    case GprsAP => "gprsAP"
    case IsDebugActive => "isDebugActive"
    case Bme280CheckIntervalSec => "bme280CheckIntervalSec"
    case IsGsmEnabled => "isGsmEnabled"
    case IsGpsEnabled => "isGpsEnabled"
    case GpsCheckIntervalSec => "gpsCheckIntervalSec"
    case PhoneNumber => "phoneNumber"
    case SmsCheckIntervalSec => "smsCheckIntervalSec"
    case IsDeepSleepEnabled => "isDeepSleepEnabled"
    case PowerSaveModeVoltage => "powerSaveModeVoltage"
    case PowerCheckIntervalSec => "powerCheckIntervalSec"
    case WakeTimeSec => "wakeTimeSec"
    case DeepSleepTimeSec => "deepSleepTimeSec"
    case IsMqttEnabled => "isMqttEnabled"
    case MqttName => "mqttName"
    case MqttServer => "mqttServer"
    case MqttPort => "mqttPort"
    case MqttUser => "mqttUser"
    case MqttPassword => "mqttPassword"
    case MqttReconnectIntervalSec => "mqttReconnectIntervalSec"
    case MqttSendOnMoveEverySec => "mqttSendOnMoveEverySec"
    case MqttSendOnNonMoveEverySec => "mqttSendOnNonMoveEverySec"
  }

  /** Different options have different ids. */
  lemma IdInjective(f: Field, g: Field)
    requires Id(f) == Id(g)
    ensures f == g
  {
  }

  function Get(o: Options, f: Field): (v: Value)
    ensures v.KindOf() == KindOfField(f)
  {
    match f
    case GsmPower => Flag(o.gsmPower)
    case WlanAP => Text(o.wlanAP)
    case WlanPassword => Text(o.wlanPassword)
    case GprsAP => Text(o.gprsAP)
    case IsDebugActive => Flag(o.isDebugActive)
    case Bme280CheckIntervalSec => Num(o.bme280CheckIntervalSec)
    case IsGsmEnabled => Flag(o.isGsmEnabled)
    case IsGpsEnabled => Flag(o.isGpsEnabled)
    case GpsCheckIntervalSec => Num(o.gpsCheckIntervalSec)
    case PhoneNumber => Text(o.phoneNumber)
    case SmsCheckIntervalSec => Num(o.smsCheckIntervalSec)
    case IsDeepSleepEnabled => Flag(o.isDeepSleepEnabled)
    case PowerSaveModeVoltage => Volt(o.powerSaveModeVoltage)
    case PowerCheckIntervalSec => Num(o.powerCheckIntervalSec)
    case WakeTimeSec => Num(o.wakeTimeSec)
    case DeepSleepTimeSec => Num(o.deepSleepTimeSec)
    case IsMqttEnabled => Flag(o.isMqttEnabled)
    case MqttName => Text(o.mqttName)
    case MqttServer => Text(o.mqttServer)
    case MqttPort => Num(o.mqttPort)
    case MqttUser => Text(o.mqttUser)
    case MqttPassword => Text(o.mqttPassword)
    case MqttReconnectIntervalSec => Num(o.mqttReconnectIntervalSec)
    case MqttSendOnMoveEverySec => Num(o.mqttSendOnMoveEverySec)
    case MqttSendOnNonMoveEverySec => Num(o.mqttSendOnNonMoveEverySec)
  }

  /** The options together with the number of times `MyOptions::save()` has
      been called; what `save()` writes is not modelled. */
  datatype Store = Store(options: Options, saves: nat)

  /** The part of `MyData` the core reads. Measured values are `double` in
      the source and kept as opaque `real`s; the rest are strings. */
  datatype Telemetry = Telemetry(
    status: string,
    voltage: real,
    temperature: real,
    humidity: real,
    pressure: real,
    modemInfo: string,
    longitude: string,
    latitude: string,
    altitude: string,
    satellites: string,
    secondsToDeepSleep: int)

  /** Arduino `String(double, decimals)`; floating-point formatting is outside
      the model, so callers pass it in. */
  type Formatter = (real, nat) -> string
}

=== FILE: settings.dfy ===
/**
 The settings page of the web server: the typed `GetOption` readers and
 `handleSaveSettings`, which copy URL arguments into the options, and the
 input descriptors of `handleLoadSettingsInfo`, which render the options as
 a form. The URL arguments of a request are a map from argument name to
 value.
 */
module Settings {
  import opened Str
  import opened Options
  import Html
  import Browser

  type Args = map<string, string>

  /** `server.arg(id)`: the value of the argument, or "" when it is absent. */
  function Arg(args: Args, id: string): (r: string)
    ensures id !in args ==> r == ""
    ensures id in args ==> r == args[id]
  {
    if id in args then args[id] else ""
  }

  /** What a `GetOption` call leaves in its option, and what it returns. */
  datatype Read<T> = Read(value: T, found: bool)

  /** `GetOption(id, String &)`: a present argument is copied, even an empty
      one; an absent one leaves the option as it was. */
  function GetStringOption(args: Args, id: string, option: string): (r: Read<string>)
    ensures r.found <==> id in args
    ensures !r.found ==> r.value == option
    ensures r.found ==> r.value == args[id]
  {
    if id in args then Read(args[id], true) else Read(option, false)
  }

  /** `GetOption(id, long &)`: only a non-empty argument is read, with
      `atoi`; an absent or empty one leaves the option as it was. */
  function GetLongOption(args: Args, id: string, option: int): (r: Read<int>)
    ensures r.found <==> id in args && args[id] != ""
    ensures !r.found ==> r.value == option
    ensures r.found ==> r.value == Atoi(args[id])
  {
    var opt := Arg(args, id);
    if opt != "" then Read(Atoi(opt), true) else Read(option, false)
  }

  /** `GetOption(id, double &)`, with the C library's `atof` passed in. */
  function GetDoubleOption(args: Args, id: string, option: real, atof: string -> real): (r: Read<real>)
    ensures r.found <==> id in args && args[id] != ""
    ensures !r.found ==> r.value == option
    ensures r.found ==> r.value == atof(args[id])
  {
    var opt := Arg(args, id);
    if opt != "" then Read(atof(opt), true) else Read(option, false)
  }

  /** `GetOption(id, bool &)`: the option is always overwritten, with true
      exactly when the argument is "on"; an absent or empty argument makes it
      false. The return value says whether the argument was non-empty. */
  function GetBoolOption(args: Args, id: string, option: bool): (r: Read<bool>)
    ensures r.value <==> id in args && args[id] == "on"
    ensures r.found <==> id in args && args[id] != ""
  {
    var opt := Arg(args, id);
    Read(opt == "on", opt != "")
  }

  /** The bool reader never keeps the old value: an unchecked checkbox, which
      a browser does not submit at all, switches the option off. */
  lemma GetBoolIgnoresOption(args: Args, id: string, a: bool, b: bool)
    ensures GetBoolOption(args, id, a) == GetBoolOption(args, id, b)
    ensures id !in args ==> !GetBoolOption(args, id, a).value
  {
  }

  /** Every reader gives the same result when it is applied to its own
      output. */
  lemma GetOptionIdempotent(args: Args, id: string, s: string, n: int, x: real, b: bool,
                            atof: string -> real)
    ensures GetStringOption(args, id, GetStringOption(args, id, s).value) == GetStringOption(args, id, s)
    ensures GetLongOption(args, id, GetLongOption(args, id, n).value) == GetLongOption(args, id, n)
    ensures GetDoubleOption(args, id, GetDoubleOption(args, id, x, atof).value, atof)
         == GetDoubleOption(args, id, x, atof)
    ensures GetBoolOption(args, id, GetBoolOption(args, id, b).value) == GetBoolOption(args, id, b)
  {
  }

  /** The options `handleSaveSettings` reads, in the order it reads them;
      `gsmPower` is not among them. */
  const SaveOrder: seq<Field> := [
    GprsAP, WlanAP, WlanPassword, IsDebugActive, Bme280CheckIntervalSec, IsGsmEnabled,
    PhoneNumber, SmsCheckIntervalSec, IsGpsEnabled, GpsCheckIntervalSec, IsDeepSleepEnabled,
    PowerSaveModeVoltage, PowerCheckIntervalSec, WakeTimeSec, DeepSleepTimeSec, IsMqttEnabled,
    MqttName, MqttServer, MqttPort, MqttUser, MqttPassword, MqttReconnectIntervalSec,
    MqttSendOnMoveEverySec, MqttSendOnNonMoveEverySec]

  /** The position of an option in `SaveOrder`. */
  function SaveIndex(f: Field): (k: nat)
    requires f != GsmPower
    ensures k < |SaveOrder| && SaveOrder[k] == f
  {
    match f
    case GprsAP => 0
    case WlanAP => 1
    case WlanPassword => 2
    case IsDebugActive => 3
    case Bme280CheckIntervalSec => 4
    case IsGsmEnabled => 5
    case PhoneNumber => 6
    case SmsCheckIntervalSec => 7
    case IsGpsEnabled => 8
    case GpsCheckIntervalSec => 9
    case IsDeepSleepEnabled => 10
    case PowerSaveModeVoltage => 11
    case PowerCheckIntervalSec => 12
    case WakeTimeSec => 13
    case DeepSleepTimeSec => 14
    case IsMqttEnabled => 15
    case MqttName => 16
    case MqttServer => 17
    case MqttPort => 18
    case MqttUser => 19
    case MqttPassword => 20
    case MqttReconnectIntervalSec => 21
    case MqttSendOnMoveEverySec => 22
    case MqttSendOnNonMoveEverySec => 23
  }

  /** `handleSaveSettings` reads every option but `gsmPower`, each once. */
  lemma SaveOrderIsEveryOptionButPower()
    ensures |SaveOrder| == 24
    ensures forall f :: f in SaveOrder <==> f != GsmPower
    ensures forall k :: 0 <= k < |SaveOrder| ==> SaveIndex(SaveOrder[k]) == k
  {
    forall f | f != GsmPower
      ensures f in SaveOrder
    {
      var k := SaveIndex(f);
    }
  }

  /** The rule by which a save request changes one option, by its C++ type:
      strings are copied when present, numbers read when non-empty, booleans
      always overwritten. */
  predicate Applied(args: Args, atof: string -> real, f: Field, before: Value, after: Value) {
    var arg := Arg(args, Id(f));
    match before
    case Text(s) => after == Text(if Id(f) in args then args[Id(f)] else s)
    case Num(n) => after == Num(if arg != "" then Atoi(arg) else n)
    case Volt(x) => after == Volt(if arg != "" then atof(arg) else x)
    case Flag(_) => after == Flag(arg == "on")
  }

  /** The sequence of `GetOption` calls of `handleSaveSettings`. Each call
      writes a different option, so their order does not matter and they
      are written as one record update. */
  function SaveSettings(o: Options, args: Args, atof: string -> real): (r: Options)
    ensures r.gsmPower == o.gsmPower
  {
    o.(
      gprsAP := GetStringOption(args, Id(GprsAP), o.gprsAP).value,
      wlanAP := GetStringOption(args, Id(WlanAP), o.wlanAP).value,
      wlanPassword := GetStringOption(args, Id(WlanPassword), o.wlanPassword).value,
      isDebugActive := GetBoolOption(args, Id(IsDebugActive), o.isDebugActive).value,
      bme280CheckIntervalSec := GetLongOption(args, Id(Bme280CheckIntervalSec), o.bme280CheckIntervalSec).value,
      isGsmEnabled := GetBoolOption(args, Id(IsGsmEnabled), o.isGsmEnabled).value,
      phoneNumber := GetStringOption(args, Id(PhoneNumber), o.phoneNumber).value,
      smsCheckIntervalSec := GetLongOption(args, Id(SmsCheckIntervalSec), o.smsCheckIntervalSec).value,
      isGpsEnabled := GetBoolOption(args, Id(IsGpsEnabled), o.isGpsEnabled).value,
      gpsCheckIntervalSec := GetLongOption(args, Id(GpsCheckIntervalSec), o.gpsCheckIntervalSec).value,
      isDeepSleepEnabled := GetBoolOption(args, Id(IsDeepSleepEnabled), o.isDeepSleepEnabled).value,
      powerSaveModeVoltage :=
        GetDoubleOption(args, Id(PowerSaveModeVoltage), o.powerSaveModeVoltage, atof).value,
      powerCheckIntervalSec := GetLongOption(args, Id(PowerCheckIntervalSec), o.powerCheckIntervalSec).value,
      wakeTimeSec := GetLongOption(args, Id(WakeTimeSec), o.wakeTimeSec).value,
      deepSleepTimeSec := GetLongOption(args, Id(DeepSleepTimeSec), o.deepSleepTimeSec).value,
      isMqttEnabled := GetBoolOption(args, Id(IsMqttEnabled), o.isMqttEnabled).value,
      mqttName := GetStringOption(args, Id(MqttName), o.mqttName).value,
      mqttServer := GetStringOption(args, Id(MqttServer), o.mqttServer).value,
      mqttPort := GetLongOption(args, Id(MqttPort), o.mqttPort).value,
      mqttUser := GetStringOption(args, Id(MqttUser), o.mqttUser).value,
      mqttPassword := GetStringOption(args, Id(MqttPassword), o.mqttPassword).value,
      mqttReconnectIntervalSec :=
        GetLongOption(args, Id(MqttReconnectIntervalSec), o.mqttReconnectIntervalSec).value,
      mqttSendOnMoveEverySec :=
        GetLongOption(args, Id(MqttSendOnMoveEverySec), o.mqttSendOnMoveEverySec).value,
      mqttSendOnNonMoveEverySec :=
        GetLongOption(args, Id(MqttSendOnNonMoveEverySec), o.mqttSendOnNonMoveEverySec).value)
  }

  /** Every option `handleSaveSettings` reads changes by the rule of its
      type, and the one it does not read, `gsmPower`, stays. */
  lemma SaveSettingsFollowsRules(o: Options, args: Args, atof: string -> real, f: Field)
    ensures f in SaveOrder ==> Applied(args, atof, f, Get(o, f), Get(SaveSettings(o, args, atof), f))
    ensures f !in SaveOrder ==> Get(SaveSettings(o, args, atof), f) == Get(o, f)
  {
    if f == GsmPower {
      assert f !in SaveOrder;
    } else {
      var k := SaveIndex(f);
      SavedFieldFollowsRule(o, args, atof, f);
    }
  }

  /** The rule for one option the save request reads, split by its type. */
  lemma SavedFieldFollowsRule(o: Options, args: Args, atof: string -> real, f: Field)
    requires f != GsmPower
    ensures Applied(args, atof, f, Get(o, f), Get(SaveSettings(o, args, atof), f))
  {
    match KindOfField(f)
    case StringKind => SavedTextFollowsRule(o, args, atof, f);
    case LongKind => SavedNumFollowsRule(o, args, atof, f);
    case DoubleKind => assert f == PowerSaveModeVoltage;
    case BoolKind => SavedFlagFollowsRule(o, args, atof, f);
  }

  lemma SavedTextFollowsRule(o: Options, args: Args, atof: string -> real, f: Field)
    requires KindOfField(f) == StringKind
    ensures Applied(args, atof, f, Get(o, f), Get(SaveSettings(o, args, atof), f))
  {
  }

  lemma SavedNumFollowsRule(o: Options, args: Args, atof: string -> real, f: Field)
    requires KindOfField(f) == LongKind
    ensures Applied(args, atof, f, Get(o, f), Get(SaveSettings(o, args, atof), f))
  {
  }

  lemma SavedFlagFollowsRule(o: Options, args: Args, atof: string -> real, f: Field)
    requires KindOfField(f) == BoolKind && f != GsmPower
    ensures Applied(args, atof, f, Get(o, f), Get(SaveSettings(o, args, atof), f))
  {
  }

  /** Saving the same arguments twice is the same as saving them once. */
  lemma SaveSettingsIdempotent(o: Options, args: Args, atof: string -> real)
    ensures SaveSettings(SaveSettings(o, args, atof), args, atof) == SaveSettings(o, args, atof)
  {
    var once := SaveSettings(o, args, atof);
    GetOptionIdempotent(args, Id(GprsAP), o.gprsAP, o.mqttPort, o.powerSaveModeVoltage, o.isDebugActive, atof);
  }

  /** `handleSaveSettings`: the options are read from the arguments and
      `save()` is called exactly once. */
  function HandleSaveSettings(s: Store, args: Args, atof: string -> real): (r: Store)
    ensures r.saves == s.saves + 1
    ensures r.options.gsmPower == s.options.gsmPower
    ensures forall f :: f in SaveOrder ==>
      Applied(args, atof, f, Get(s.options, f), Get(r.options, f))
  {
    var r := Store(SaveSettings(s.options, args, atof), s.saves + 1);
    forall f | f in SaveOrder
      ensures Applied(args, atof, f, Get(s.options, f), Get(r.options, f))
    {
      SaveSettingsFollowsRules(s.options, args, atof, f);
    }
    r
  }

  // ---------------------------------------------------------------------
  // The settings form
  // ---------------------------------------------------------------------

  /** One `AddOption` or `AddBr` call of `handleLoadSettingsInfo`. */
  datatype Input =
    | TextInput(field: Field, caption: string, value: string, addBr: bool, isPassword: bool)
    | Checkbox(field: Field, caption: string, checked: bool, addBr: bool)
    | LineBreak

  /** The option whose `AddOption` call comes at position `k` of
      `handleLoadSettingsInfo`; position 15 is the `AddBr` between the two
      fieldsets. */
  function FormSlot(k: nat): (r: Option<Field>)
    requires k < 25
    ensures r.Some? ==> r.value != GsmPower
  {
    match k
    case 0 => Some(WlanAP)
    case 1 => Some(WlanPassword)
    case 2 => Some(GprsAP)
    case 3 => Some(IsDebugActive)
    case 4 => Some(Bme280CheckIntervalSec)
    case 5 => Some(IsGsmEnabled)
    case 6 => Some(IsGpsEnabled)
    case 7 => Some(GpsCheckIntervalSec)
    case 8 => Some(PhoneNumber)
    case 9 => Some(SmsCheckIntervalSec)
    case 10 => Some(IsDeepSleepEnabled)
    case 11 => Some(PowerSaveModeVoltage)
    case 12 => Some(PowerCheckIntervalSec)
    case 13 => Some(WakeTimeSec)
    case 14 => Some(DeepSleepTimeSec)
    case 15 => None
    case 16 => Some(IsMqttEnabled)
    case 17 => Some(MqttName)
    case 18 => Some(MqttServer)
    case 19 => Some(MqttPort)
    case 20 => Some(MqttUser)
    case 21 => Some(MqttPassword)
    case 22 => Some(MqttReconnectIntervalSec)
    case 23 => Some(MqttSendOnMoveEverySec)
    case _ => Some(MqttSendOnNonMoveEverySec)
  }

  /** The caption each option is shown with. */
  function Caption(f: Field): string
    requires f != GsmPower
  {
    match f
    case WlanAP => "WLAN SSID"
    case WlanPassword => "WLAN Password"
    case GprsAP => "GPRS AP"
    case IsDebugActive => "Debug Active"
    case Bme280CheckIntervalSec => "Temperature check every (Seconds)"
    case IsGsmEnabled => "GSM Enabled"
    case IsGpsEnabled => "GPS Enabled"
    case GpsCheckIntervalSec => "GPS check every (Seconds)"
    case PhoneNumber => "Information send to"
    case SmsCheckIntervalSec => "SMS check every (Seconds)"
    case IsDeepSleepEnabled => "Power saving mode active"
    case PowerSaveModeVoltage => "Power saving mode under (Volt)"
    case PowerCheckIntervalSec => "Check power every (Seconds)"
    case WakeTimeSec => "Active time (Seconds)"
    case DeepSleepTimeSec => "DeepSleep time (Seconds)"
    case IsMqttEnabled => "MQTT Active"
    case MqttName => "MQTT Name"
    case MqttServer => "MQTT Server"
    case MqttPort => "MQTT Port"
    case MqttUser => "MQTT User"
    case MqttPassword => "MQTT Password"
    case MqttReconnectIntervalSec => "MQTT Reconnect every (Seconds)"
    case MqttSendOnMoveEverySec => "MQTT Send on moving every (Seconds)"
    case MqttSendOnNonMoveEverySec => "MQTT Send on standing every (Seconds)"
  }

  /** The `AddOption` call for one option: the value shown, numbers through
      `String(long)` and the voltage with one decimal, and whether a line
      break follows. */
  function OptionInput(o: Options, fmt: Formatter, f: Field): Input
    requires f != GsmPower
  {
    match f
    case WlanAP => TextInput(f, Caption(f), o.wlanAP, true, false)
    case WlanPassword => TextInput(f, Caption(f), o.wlanPassword, true, true)
    case GprsAP => TextInput(f, Caption(f), o.gprsAP, true, false)
    case IsDebugActive => Checkbox(f, Caption(f), o.isDebugActive, true)
    case Bme280CheckIntervalSec =>
      TextInput(f, Caption(f), IntToString(o.bme280CheckIntervalSec), true, false)
    case IsGsmEnabled => Checkbox(f, Caption(f), o.isGsmEnabled, true)
    case IsGpsEnabled => Checkbox(f, Caption(f), o.isGpsEnabled, true)
    case GpsCheckIntervalSec =>
      TextInput(f, Caption(f), IntToString(o.gpsCheckIntervalSec), true, false)
    case PhoneNumber => TextInput(f, Caption(f), o.phoneNumber, true, false)
    case SmsCheckIntervalSec =>
      TextInput(f, Caption(f), IntToString(o.smsCheckIntervalSec), true, false)
    case IsDeepSleepEnabled => Checkbox(f, Caption(f), o.isDeepSleepEnabled, false)
    case PowerSaveModeVoltage =>
      TextInput(f, Caption(f), fmt(o.powerSaveModeVoltage, 1), true, false)
    case PowerCheckIntervalSec =>
      TextInput(f, Caption(f), IntToString(o.powerCheckIntervalSec), true, false)
    case WakeTimeSec => TextInput(f, Caption(f), IntToString(o.wakeTimeSec), true, false)
    case DeepSleepTimeSec =>
      TextInput(f, Caption(f), IntToString(o.deepSleepTimeSec), true, false)
    case IsMqttEnabled => Checkbox(f, Caption(f), o.isMqttEnabled, false)
    case MqttName => TextInput(f, Caption(f), o.mqttName, true, false)
    case MqttServer => TextInput(f, Caption(f), o.mqttServer, true, false)
    case MqttPort => TextInput(f, Caption(f), IntToString(o.mqttPort), true, false)
    case MqttUser => TextInput(f, Caption(f), o.mqttUser, true, false)
    case MqttPassword => TextInput(f, Caption(f), o.mqttPassword, true, true)
    case MqttReconnectIntervalSec =>
      TextInput(f, Caption(f), IntToString(o.mqttReconnectIntervalSec), true, false)
    case MqttSendOnMoveEverySec =>
      TextInput(f, Caption(f), IntToString(o.mqttSendOnMoveEverySec), true, false)
    case MqttSendOnNonMoveEverySec =>
      TextInput(f, Caption(f), IntToString(o.mqttSendOnNonMoveEverySec), false, false)
  }

  /** The calls of `handleLoadSettingsInfo`, in order. */
  function SettingsForm(o: Options, fmt: Formatter): (r: seq<Input>)
    ensures |r| == 25
    ensures forall k :: 0 <= k < 25 && FormSlot(k).None? ==> r[k] == LineBreak
    ensures forall k :: 0 <= k < 25 && FormSlot(k).Some? ==> r[k] == OptionInput(o, fmt, FormSlot(k).value)
  {
    seq(25, k requires 0 <= k < 25 =>
      match FormSlot(k)
      case None => LineBreak
      case Some(f) => OptionInput(o, fmt, f))
  }

  /** The position of an option's input in the form. */
  function FormIndex(f: Field): (k: nat)
    requires f != GsmPower
    ensures k < 25 && FormSlot(k) == Some(f)
  {
    match f
    case WlanAP => 0
    case WlanPassword => 1
    case GprsAP => 2
    case IsDebugActive => 3
    case Bme280CheckIntervalSec => 4
    case IsGsmEnabled => 5
    case IsGpsEnabled => 6
    case GpsCheckIntervalSec => 7
    case PhoneNumber => 8
    case SmsCheckIntervalSec => 9
    case IsDeepSleepEnabled => 10
    case PowerSaveModeVoltage => 11
    case PowerCheckIntervalSec => 12
    case WakeTimeSec => 13
    case DeepSleepTimeSec => 14
    case IsMqttEnabled => 16
    case MqttName => 17
    case MqttServer => 18
    case MqttPort => 19
    case MqttUser => 20
    case MqttPassword => 21
    case MqttReconnectIntervalSec => 22
    case MqttSendOnMoveEverySec => 23
    case MqttSendOnNonMoveEverySec => 24
  }

  /** Each option sits at one position only: the one `FormIndex` gives. */
  lemma FormIndexInverse()
    ensures forall k :: 0 <= k < 25 && FormSlot(k).Some? ==> FormIndex(FormSlot(k).value) == k
  {
  }

  /** An input shows the current value of its option: strings as they are,
      numbers through `String(long)`, the voltage through the formatter, and
      booleans as the state of a checkbox. */
  predicate Shows(o: Options, fmt: Formatter, item: Input) {
    match item
    case TextInput(f, _, v, _, _) =>
      (match Get(o, f)
       case Text(s) => v == s
       case Num(n) => v == IntToString(n)
       case Volt(x) => v == fmt(x, 1)
       case Flag(_) => false)
    case Checkbox(f, _, c, _) => Get(o, f) == Flag(c)
    case LineBreak => true
  }

  /** Only the two passwords are password fields. */
  predicate PasswordIffSecret(item: Input) {
    item.TextInput? ==> (item.isPassword <==> item.field in {WlanPassword, MqttPassword})
  }

  /** The input of every option belongs to it. */
  lemma OptionInputField(o: Options, fmt: Formatter, f: Field)
    requires f != GsmPower
    ensures !OptionInput(o, fmt, f).LineBreak? && OptionInput(o, fmt, f).field == f
  {
    match KindOfField(f)
    case StringKind =>
    case LongKind =>
    case DoubleKind =>
    case BoolKind =>
  }

  /** The input of every option shows its current value. */
  lemma OptionInputShows(o: Options, fmt: Formatter, f: Field)
    requires f != GsmPower
    ensures Shows(o, fmt, OptionInput(o, fmt, f))
  {
    match KindOfField(f)
    case StringKind => TextInputShows(o, fmt, f);
    case LongKind => NumInputShows(o, fmt, f);
    case DoubleKind => assert f == PowerSaveModeVoltage;
    case BoolKind => CheckboxShows(o, fmt, f);
  }

  lemma TextInputShows(o: Options, fmt: Formatter, f: Field)
    requires KindOfField(f) == StringKind
    ensures Shows(o, fmt, OptionInput(o, fmt, f))
  {
  }

  lemma NumInputShows(o: Options, fmt: Formatter, f: Field)
    requires KindOfField(f) == LongKind
    ensures Shows(o, fmt, OptionInput(o, fmt, f))
  {
  }

  lemma CheckboxShows(o: Options, fmt: Formatter, f: Field)
    requires KindOfField(f) == BoolKind && f != GsmPower
    ensures Shows(o, fmt, OptionInput(o, fmt, f))
  {
  }

  /** Only the two passwords are hidden. */
  lemma OptionInputPasswords(o: Options, fmt: Formatter, f: Field)
    requires f != GsmPower
    ensures PasswordIffSecret(OptionInput(o, fmt, f))
  {
    match KindOfField(f)
    case StringKind => TextInputPasswords(o, fmt, f);
    case LongKind => NumInputPasswords(o, fmt, f);
    case DoubleKind => assert f == PowerSaveModeVoltage;
    case BoolKind => CheckboxShows(o, fmt, f);
  }

  lemma TextInputPasswords(o: Options, fmt: Formatter, f: Field)
    requires KindOfField(f) == StringKind
    ensures PasswordIffSecret(OptionInput(o, fmt, f))
  {
  }

  lemma NumInputPasswords(o: Options, fmt: Formatter, f: Field)
    requires KindOfField(f) == LongKind
    ensures PasswordIffSecret(OptionInput(o, fmt, f))
  {
  }

  /** The boolean options, and only they, are checkboxes. */
  lemma OptionInputCheckboxes(o: Options, fmt: Formatter, f: Field)
    requires f != GsmPower
    ensures OptionInput(o, fmt, f).Checkbox? <==> KindOfField(f) == BoolKind
  {
    match KindOfField(f)
    case StringKind =>
    case LongKind =>
    case DoubleKind =>
    case BoolKind =>
  }

  /** The form and the save request agree: the form has an input for an
      option exactly when the save request reads it, and one input only. */
  lemma FormMatchesSave(o: Options, fmt: Formatter)
    ensures forall f :: f in SaveOrder <==>
      exists k :: 0 <= k < |SettingsForm(o, fmt)| && !SettingsForm(o, fmt)[k].LineBreak?
                  && SettingsForm(o, fmt)[k].field == f
    ensures forall i, j ::
      (0 <= i < j < |SettingsForm(o, fmt)| && !SettingsForm(o, fmt)[i].LineBreak?
       && !SettingsForm(o, fmt)[j].LineBreak?) ==> SettingsForm(o, fmt)[i].field != SettingsForm(o, fmt)[j].field
  {
    var form := SettingsForm(o, fmt);
    FormFieldsAtIndex(o, fmt);
    SaveOrderIsEveryOptionButPower();
    forall f | f in SaveOrder
      ensures exists k :: 0 <= k < |form| && !form[k].LineBreak? && form[k].field == f
    {
      var k := FormIndex(f);
      OptionInputField(o, fmt, f);
      assert !form[k].LineBreak? && form[k].field == f;
    }
  }

  /** Every input of the form is the one of its option's `FormIndex`. */
  lemma FormFieldsAtIndex(o: Options, fmt: Formatter)
    ensures forall k :: 0 <= k < |SettingsForm(o, fmt)| && !SettingsForm(o, fmt)[k].LineBreak? ==>
      SettingsForm(o, fmt)[k].field != GsmPower && FormIndex(SettingsForm(o, fmt)[k].field) == k
  {
    var form := SettingsForm(o, fmt);
    FormIndexInverse();
    forall k | 0 <= k < |form| && !form[k].LineBreak?
      ensures form[k].field != GsmPower && FormIndex(form[k].field) == k
    {
      OptionInputField(o, fmt, FormSlot(k).value);
    }
  }

  /** One call of the form, rendered with the `AddOption` overloads. */
  function RenderInput(info: string, item: Input): (r: string)
    ensures info <= r
  {
    match item
    case TextInput(f, caption, v, addBr, isPassword) =>
      Html.AddTextOption(info, Id(f), caption, v, addBr, isPassword)
    case Checkbox(f, caption, c, addBr) =>
      Html.AddCheckboxOption(info, Id(f), caption, c, addBr)
    case LineBreak =>
      Html.AddBr(info)
  }

  /** The calls rendered one after the other: the last call appends to
      the rendering of the ones before it. */
  function Render(info: string, items: seq<Input>): (r: string)
    ensures info <= r
    decreases |items|
  {
    if items == [] then info
    else RenderInput(Render(info, items[..|items| - 1]), items[|items| - 1])
  }

  /** The page `handleLoadSettingsInfo` sends (without the fieldset and
      legend wrappers). */
  function SettingsPage(o: Options, fmt: Formatter): string {
    Render("", SettingsForm(o, fmt))
  }

  /** A text input writes its `value` attribute. */
  lemma RenderInputShows(info: string, item: Input)
    requires item.TextInput?
    ensures exists i :: Html.At(RenderInput(info, item), i, Html.TextOptionTail(item.value))
  {
    var id, tail := Id(item.field), Html.TextOptionTail(item.value);
    var written := Html.AddTextOption(info, id, item.caption, item.value, item.addBr, item.isPassword);
    assert RenderInput(info, item) == written;
    Html.AddTextOptionShowsValue(info, id, item.caption, item.value, item.addBr, item.isPassword);
    var i :| |info| <= i && Html.At(written, i, tail);
    assert Html.At(RenderInput(info, item), i, tail);
  }

  /** The rendering of the first `k` calls is the start of the rendering
      of all of them: calls only append. */
  lemma {:induction false} RenderPrefix(info: string, items: seq<Input>, k: nat)
    requires k <= |items|
    ensures Render(info, items[..k]) <= Render(info, items)
    decreases |items|
  {
    if k < |items| {
      var init := items[..|items| - 1];
      RenderPrefix(info, init, k);
      assert init[..k] == items[..k];
    } else {
      assert items[..k] == items;
    }
  }

  /** Call `k` appends to the rendering of the calls before it. */
  lemma RenderStep(info: string, items: seq<Input>, k: nat)
    requires k < |items|
    ensures Render(info, items[..k + 1]) == RenderInput(Render(info, items[..k]), items[k])
  {
    var upto := items[..k + 1];
    assert upto[..|upto| - 1] == items[..k];
    assert upto[|upto| - 1] == items[k];
  }

  /** The `value` attribute of every text input is on the page as the
      input writes it. */
  lemma RenderShows(info: string, items: seq<Input>, k: nat)
    requires k < |items| && items[k].TextInput?
    ensures exists i :: Html.At(Render(info, items), i, Html.TextOptionTail(items[k].value))
  {
    var before := Render(info, items[..k]);
    var written := RenderInput(before, items[k]);
    var tail := Html.TextOptionTail(items[k].value);
    RenderStep(info, items, k);
    RenderPrefix(info, items, k + 1);
    RenderInputShows(before, items[k]);
    var i :| Html.At(written, i, tail);
    Html.AtInLonger(written, tail, i, Render(info, items));
  }

  /** The page holds the `value` attribute of each option's text input. */
  lemma PageShowsInput(o: Options, fmt: Formatter, f: Field)
    requires f != GsmPower && OptionInput(o, fmt, f).TextInput?
    ensures exists i :: Html.At(SettingsPage(o, fmt), i, Html.TextOptionTail(OptionInput(o, fmt, f).value))
  {
    var form := SettingsForm(o, fmt);
    var item := OptionInput(o, fmt, f);
    var k := FormIndex(f);
    assert form[k] == item;
    RenderShows("", form, k);
    var i :| Html.At(Render("", form), i, Html.TextOptionTail(form[k].value));
    assert Html.At(SettingsPage(o, fmt), i, Html.TextOptionTail(item.value));
  }

  /** The settings page shows every string option in the `value`
      attribute of its input, escaped by `TextToXml`. */
  lemma SettingsPageShowsValue(o: Options, fmt: Formatter, f: Field)
    requires f != GsmPower && Get(o, f).Text?
    ensures exists i :: Html.At(SettingsPage(o, fmt), i, Html.TextOptionTail(Get(o, f).s))
  {
    assert KindOfField(f) == StringKind;
    TextInputShows(o, fmt, f);
    OptionInputField(o, fmt, f);
    PageShowsInput(o, fmt, f);
  }

  // ---------------------------------------------------------------------
  // Submitting the form back
  // ---------------------------------------------------------------------

  /** What a browser submits for one input: a text input what it reads
      from the `value` attribute written into the page, a checkbox "on"
      when checked and nothing otherwise. */
  function Submitted(item: Input): Option<string> {
    match item
    case TextInput(_, _, v, _, _) => Some(Browser.InputValue(Html.ValueText(v)))
    case Checkbox(_, _, c, _) => if c then Some("on") else None
    case LineBreak => None
  }

  /** The arguments of a submitted form. */
  function Submit(items: seq<Input>): Args {
    if items == [] then map[]
    else
      var rest := Submit(items[1..]);
      match Submitted(items[0])
      case Some(v) => rest[Id(items[0].field) := v]
      case None => rest
  }

  /** An input whose option has no other input in the form is submitted
      under its id with exactly its own value. */
  lemma {:induction false} SubmitLookup(items: seq<Input>, k: nat)
    requires k < |items| && !items[k].LineBreak?
    requires forall j :: 0 <= j < |items| && j != k && !items[j].LineBreak? ==> items[j].field != items[k].field
    ensures Submitted(items[k]).Some? ==>
      Id(items[k].field) in Submit(items) && Submit(items)[Id(items[k].field)] == Submitted(items[k]).value
    ensures Submitted(items[k]).None? ==> Id(items[k].field) !in Submit(items)
  {
    var f := items[k].field;
    if k == 0 {
      SubmitWithout(items[1..], f);
    } else {
      SubmitLookup(items[1..], k - 1);
      if !items[0].LineBreak? {
        if Id(items[0].field) == Id(f) {
          IdInjective(items[0].field, f);
        }
      }
    }
  }

  /** A form without an input for `f` submits nothing under its id. */
  lemma {:induction false} SubmitWithout(items: seq<Input>, f: Field)
    requires forall j :: 0 <= j < |items| && !items[j].LineBreak? ==> items[j].field != f
    ensures Id(f) !in Submit(items)
  {
    if items != [] {
      SubmitWithout(items[1..], f);
      if !items[0].LineBreak? && Id(items[0].field) == Id(f) {
        IdInjective(items[0].field, f);
      }
    }
  }

  /** The texts a text input carries back as they are: none of the
      characters `TextToXml` rewrites, no quote to end the attribute early,
      and no line break for the browser to drop. */
  predicate Submittable(s: string) {
    Html.Plain(s) && '\'' !in s && '\r' !in s && '\n' !in s
  }

  /** What a browser reads back from the page for a text value is always
      submittable. */
  lemma SubmittedIsSubmittable(v: string)
    ensures Submittable(Browser.InputValue(Html.ValueText(v)))
  {
    var x := Html.TextToXml(v);
    var b := Browser.Before(x + "'>", '\'');
    Browser.BeforeAppend(x, "'>", '\'');
    assert Browser.Before("'>", '\'') == [];
    assert x + [] == x;
    assert forall c :: c in b ==> c in x;
    Browser.DecodeWithoutAmpersand(b);
  }

  /** A submittable value is read back exactly. */
  lemma SubmittedOfSubmittable(v: string)
    requires Submittable(v)
    ensures Browser.InputValue(Html.ValueText(v)) == v
  {
    Browser.BeforeAppend(v, "'>", '\'');
    assert Browser.Before("'>", '\'') == [];
    assert v + [] == v;
    Browser.DecodeWithoutAmpersand(v);
  }

  /** Numbers are written with digits and `-` only. */
  lemma IntToStringIsSubmittable(n: int)
    ensures Submittable(IntToString(n))
  {
    var s := NatToString(if n < 0 then -n else n);
    assert forall k :: 0 <= k < |s| ==> IsDigit(s[k]);
  }

  /** The escaped form of a text without a quote or a line break is
      submittable. */
  lemma EscapedIsSubmittable(v: string)
    requires '\'' !in v && '\r' !in v && '\n' !in v
    ensures Submittable(Html.TextToXml(v))
  {
    Html.EscapeKeepsOthers(v);
  }

  /** Every string option is submittable. */
  predicate SubmittableStrings(o: Options) {
    forall f :: Get(o, f).Text? ==> Submittable(Get(o, f).s)
  }

  /** What the submitted form carries under an option's id: exactly what
      the option's input submits. */
  lemma FormArg(o: Options, fmt: Formatter, f: Field)
    requires f != GsmPower
    ensures var sent := Submitted(OptionInput(o, fmt, f));
            var args := Submit(SettingsForm(o, fmt));
            (sent.Some? ==> Id(f) in args && args[Id(f)] == sent.value)
            && (sent.None? ==> Id(f) !in args)
  {
    var k := FormIndex(f);
    OptionInputField(o, fmt, f);
    FormFieldsAtIndex(o, fmt);
    SubmitLookup(SettingsForm(o, fmt), k);
  }

  /** What a string option is saved as when the form is submitted: what
      the browser reads from its `value` attribute. */
  lemma SavedText(o: Options, fmt: Formatter, atof: string -> real, f: Field)
    requires f != GsmPower && Get(o, f).Text?
    ensures Get(SaveSettings(o, Submit(SettingsForm(o, fmt)), atof), f)
            == Text(Browser.InputValue(Html.ValueText(Get(o, f).s)))
  {
    FormArg(o, fmt, f);
    OptionInputField(o, fmt, f);
    OptionInputShows(o, fmt, f);
    OptionInputCheckboxes(o, fmt, f);
    SaveSettingsIncludes(f);
    SaveSettingsFollowsRules(o, Submit(SettingsForm(o, fmt)), atof, f);
  }

  /** A submittable string option comes back unchanged. */
  lemma TextRoundTrip(o: Options, fmt: Formatter, atof: string -> real, f: Field)
    requires f != GsmPower && Get(o, f).Text? && Submittable(Get(o, f).s)
    ensures Get(SaveSettings(o, Submit(SettingsForm(o, fmt)), atof), f) == Get(o, f)
  {
    SavedText(o, fmt, atof, f);
    SubmittedOfSubmittable(Get(o, f).s);
  }

  /** A string option comes back unchanged exactly when it is
      submittable. */
  lemma TextRoundTripIff(o: Options, fmt: Formatter, atof: string -> real, f: Field)
    requires f != GsmPower && Get(o, f).Text?
    ensures Get(SaveSettings(o, Submit(SettingsForm(o, fmt)), atof), f) == Get(o, f)
            <==> Submittable(Get(o, f).s)
  {
    SavedText(o, fmt, atof, f);
    SubmittedIsSubmittable(Get(o, f).s);
    if Submittable(Get(o, f).s) {
      SubmittedOfSubmittable(Get(o, f).s);
    }
  }

  /** A number comes back unchanged: `atoi` reads what `String(long)`
      wrote. */
  lemma NumRoundTrip(o: Options, fmt: Formatter, atof: string -> real, f: Field)
    requires f != GsmPower && Get(o, f).Num?
    ensures Get(SaveSettings(o, Submit(SettingsForm(o, fmt)), atof), f) == Get(o, f)
  {
    var n := Get(o, f).n;
    FormArg(o, fmt, f);
    OptionInputField(o, fmt, f);
    OptionInputShows(o, fmt, f);
    OptionInputCheckboxes(o, fmt, f);
    IntToStringIsSubmittable(n);
    SubmittedOfSubmittable(IntToString(n));
    AtoiOfIntToString(n, "");
    assert IntToString(n) + "" == IntToString(n);
    SaveSettingsIncludes(f);
    SaveSettingsFollowsRules(o, Submit(SettingsForm(o, fmt)), atof, f);
  }

  /** A boolean comes back unchanged: a checked box submits "on", an
      unchecked one nothing. */
  lemma FlagRoundTrip(o: Options, fmt: Formatter, atof: string -> real, f: Field)
    requires f != GsmPower && Get(o, f).Flag?
    ensures Get(SaveSettings(o, Submit(SettingsForm(o, fmt)), atof), f) == Get(o, f)
  {
    FormArg(o, fmt, f);
    OptionInputField(o, fmt, f);
    OptionInputShows(o, fmt, f);
    OptionInputCheckboxes(o, fmt, f);
    SaveSettingsIncludes(f);
    SaveSettingsFollowsRules(o, Submit(SettingsForm(o, fmt)), atof, f);
  }

  lemma SaveSettingsIncludes(f: Field)
    requires f != GsmPower
    ensures f in SaveOrder
  {
    var k := SaveIndex(f);
  }

  /** Saving the form exactly as it was shown gives back every option but
      the voltage, which goes through floating-point formatting and `atof`,
      provided every string option is submittable. */
  lemma FormRoundTrip(o: Options, fmt: Formatter, atof: string -> real, f: Field)
    requires SubmittableStrings(o)
    requires f != PowerSaveModeVoltage
    ensures Get(SaveSettings(o, Submit(SettingsForm(o, fmt)), atof), f) == Get(o, f)
  {
    if f == GsmPower {
      SaveSettingsFollowsRules(o, Submit(SettingsForm(o, fmt)), atof, f);
    } else {
      match Get(o, f)
      case Text(_) => TextRoundTrip(o, fmt, atof, f);
      case Num(_) => NumRoundTrip(o, fmt, atof, f);
      case Volt(_) =>
      case Flag(_) => FlagRoundTrip(o, fmt, atof, f);
    }
  }

  /** A string option with a `'` is cut at it: `TextToXml` leaves the quote
      in the single-quoted `value` attribute, where it ends the value. */
  lemma ApostropheCutsValue(o: Options, fmt: Formatter, atof: string -> real, f: Field)
    requires f != GsmPower && Get(o, f).Text?
    requires Html.Plain(Get(o, f).s) && '\r' !in Get(o, f).s && '\n' !in Get(o, f).s
    requires '\'' in Get(o, f).s
    ensures IndexOf(Get(o, f).s, '\'').Some?
    ensures Get(SaveSettings(o, Submit(SettingsForm(o, fmt)), atof), f)
            == Text(Get(o, f).s[..IndexOf(Get(o, f).s, '\'').value])
    ensures Get(SaveSettings(o, Submit(SettingsForm(o, fmt)), atof), f) != Get(o, f)
  {
    var v := Get(o, f).s;
    SavedText(o, fmt, atof, f);
    Browser.BeforeAppend(v, "'>", '\'');
    Browser.BeforeIsPrefix(v, '\'');
    var cut := v[..IndexOf(v, '\'').value];
    assert forall c :: c in cut ==> c in v;
    Browser.DecodeWithoutAmpersand(cut);
  }

  /** The WLAN name "Bob's" is saved as "Bob". */
  lemma ApostropheExample(o: Options, fmt: Formatter, atof: string -> real)
    requires o.wlanAP == "Bob's"
    ensures SaveSettings(o, Submit(SettingsForm(o, fmt)), atof).wlanAP == "Bob"
  {
    var v := "Bob's";
    assert v == "Bob" + ['\''] + "s";
    IndexOfAfterHead("Bob", '\'', "s");
    assert v[..3] == "Bob";
    assert v[3] == '\'';
    assert Get(o, WlanAP) == Text(v);
    ApostropheCutsValue(o, fmt, atof, WlanAP);
  }

  /** Without a quote or a line break, a string option is saved as
      `TextToXml` wrote it: a `&`, `<` or `>` in it comes back as `%26`,
      `%3C` or `%3E`, so such an option never comes back unchanged. */
  lemma AmpersandIsCorrupted(o: Options, fmt: Formatter, atof: string -> real, f: Field)
    requires f != GsmPower && Get(o, f).Text?
    requires '\'' !in Get(o, f).s && '\r' !in Get(o, f).s && '\n' !in Get(o, f).s
    ensures Get(SaveSettings(o, Submit(SettingsForm(o, fmt)), atof), f) == Text(Html.TextToXml(Get(o, f).s))
    ensures !Html.Plain(Get(o, f).s) ==> Get(SaveSettings(o, Submit(SettingsForm(o, fmt)), atof), f) != Get(o, f)
  {
    var v := Get(o, f).s;
    var x := Html.TextToXml(v);
    SavedText(o, fmt, atof, f);
    EscapedIsSubmittable(v);
    SubmittedOfSubmittable(x);
    assert Html.ValueText(x) == Html.ValueText(v);
  }
}

=== FILE: sms_cmd.dfy ===
/**
 The SMS command interpreter (`MySmsCmd`). A poll gate decides when to read
 the modem's inbox; each message read is deleted, dispatched on its whole
 lower-cased text, and answered with exactly one SMS to the configured
 phone number. The modem is cut at its edges: the inbox is a sequence of
 messages and the modem traffic is a log of deletes and sends.
 */
module SmsCmd {
  import opened Str
  import opened Options

  /** One received message as the modem driver reports it. */
  datatype SmsData = SmsData(index: int, message: string, phoneNumber: string)

  /** The modem traffic the interpreter causes. */
  datatype Event = Deleted(index: int) | Sent(to: string, text: string)

  /** What a handler leaves behind: the options after it ran, and the one
      text it sent. `sendSms` addresses it to the phone number of the
      options at the moment of sending, i.e. of `options`. */
  datatype Reply = Reply(options: Options, text: string)

  const OkSuffix := " -> OK"
  const MapsUrl := "http://maps.google.com/maps?q="
  const HelpText := "wrong command\n" + "on\n" + "off\n" + "status\n"
    + "gps[:15] - check every (sec)\n" + "sms[:15] - check every (sec)\n"
    + "mqtt[30:60] - (moving:standing (sec)\n" + "phone:1234\n"

  /** `sendOk`: the original, not lower-cased, message with " -> OK". */
  function OkText(sms: SmsData): (r: string)
    ensures sms.message <= r && r[|sms.message|..] == OkSuffix
  {
    sms.message + OkSuffix
  }

  // ---------------------------------------------------------------------
  // Argument parsers (the three `readValues` overloads)
  // ---------------------------------------------------------------------

  /** `readValues(String &, message)`: the text after the first `:`, or
      nothing when there is no `:` (the target then stays unchanged). */
  function ReadString(message: string): (r: Option<string>)
    ensures r.Some? <==> ':' in message
    ensures r.Some? ==>
      var k := |message| - |r.value| - 1;
      0 <= k && message[k] == ':' && ':' !in message[..k] && message[k + 1..] == r.value
  {
    match IndexOf(message, ':')
    case None => None
    case Some(i) => Some(message[i + 1..])
  }

  /** `readValues(long &, message)`: `atoi` of the text after the first `:`. */
  function ReadLong(message: string): (r: Option<int>)
    ensures r.Some? <==> ':' in message
    ensures r.Some? ==> r.value == Atoi(ReadString(message).value)
  {
    match ReadString(message)
    case None => None
    case Some(v) => Some(Atoi(v))
  }

  /** The two fields `readValues(long &, long &, message)` converts: the
      text between the first two colons and the text after the second. */
  function ReadFields(message: string): Option<(string, string)> {
    match IndexOf(message, ':')
    case None => None
    case Some(first) =>
      match IndexOfFrom(message, ':', first + 1)
      case None => None
      case Some(second) => Some((message[first + 1..second], message[second + 1..]))
  }

  /** The two fields exist exactly when the message holds at least two
      colons. */
  lemma ReadFieldsIffTwoColons(message: string)
    ensures ReadFields(message).Some? <==> Count(message, ':') >= 2
  {
    match IndexOf(message, ':')
    case None =>
      CountZeroIffAbsent(message, ':');
    case Some(first) =>
      CountAfterFirst(message, ':', first);
      var rest := message[first + 1..];
      CountZeroIffAbsent(rest, ':');
      match IndexOfFrom(message, ':', first + 1)
      case None =>
        assert ':' !in rest by {
          assert forall k :: 0 <= k < |rest| ==> rest[k] == message[first + 1 + k];
        }
      case Some(second) =>
        assert rest[second - first - 1] == ':';
  }

  /** `readValues(long &, long &, message)`: `atoi` of both fields; it
      succeeds exactly when the message holds at least two colons. */
  function ReadTwo(message: string): (r: Option<(int, int)>)
    ensures r.Some? <==> Count(message, ':') >= 2
  {
    ReadFieldsIffTwoColons(message);
    match ReadFields(message)
    case None => None
    case Some((first, second)) => Some((Atoi(first), Atoi(second)))
  }

  /** Counting from the first occurrence of `c`. */
  lemma CountAfterFirst(s: string, c: char, i: nat)
    requires i < |s| && s[i] == c && c !in s[..i]
    ensures Count(s, c) == 1 + Count(s[i + 1..], c)
  {
    assert s == s[..i] + ([c] + s[i + 1..]);
    CountAppend(s[..i], [c] + s[i + 1..], c);
    CountAppend([c], s[i + 1..], c);
    CountZeroIffAbsent(s[..i], c);
    assert [c][1..] == [];
  }

  /** The string form reads back whatever follows the first colon. */
  lemma ReadStringOfColon(head: string, suffix: string)
    requires ':' !in head
    ensures ReadString(head + ":" + suffix) == Some(suffix)
  {
    assert head + ":" + suffix == head + [':'] + suffix;
    IndexOfAfterHead(head, ':', suffix);
  }

  /** The long form reads back a number written after the first colon,
      whatever non-digit text follows it. */
  lemma ReadLongOfColon(head: string, n: int, rest: string)
    requires ':' !in head
    requires |rest| == 0 || !IsDigit(rest[0])
    ensures ReadLong(head + ":" + IntToString(n) + rest) == Some(n)
  {
    assert head + ":" + IntToString(n) + rest == head + ":" + (IntToString(n) + rest);
    ReadStringOfColon(head, IntToString(n) + rest);
    AtoiOfIntToString(n, rest);
  }

  /** The two-value form reads `atoi` of the two fields after the first and
      the second colon. */
  lemma ReadTwoOfColons(a: string, b: string, c: string)
    requires ':' !in a && ':' !in b
    ensures ReadTwo(a + ":" + b + ":" + c) == Some((Atoi(b), Atoi(c)))
  {
    var u := b + ":" + c;
    var s := a + ":" + u;
    var i, j := |a| + 1, |a| + 1 + |b|;
    assert a + ":" + b + ":" + c == s;
    assert s == a + [':'] + u;
    IndexOfAfterHead(a, ':', u);
    ColonAfterField(a, b, c, s);
    NextColon(s, b, i, j);
    ReadFieldsAt(s, |a|, j);
  }

  /** The layout of `a:b:c` around its second colon. */
  lemma ColonAfterField(a: string, b: string, c: string, s: string)
    requires s == a + ":" + (b + ":" + c)
    ensures var j := |a| + 1 + |b|;
            j < |s| && s[|a| + 1..j] == b && s[j] == ':' && s[j + 1..] == c
  {
    var u := b + ":" + c;
    assert s == (a + ":") + u;
    assert u[..|b|] == b && u[|b|] == ':' && u[|b| + 1..] == c;
    AfterPrefix(s, |a| + 1, u, |b|);
  }

  /** Positions in a suffix `u` of `s` starting at `i`. */
  lemma AfterPrefix(s: string, i: nat, u: string, k: nat)
    requires i <= |s| && s[i..] == u && k < |u|
    ensures s[i..i + k] == u[..k] && s[i + k] == u[k] && s[i + k + 1..] == u[k + 1..]
  {
  }

  /** A colon right after a colon-free field is the next one. */
  lemma NextColon(s: string, field: string, i: nat, j: nat)
    requires i <= j < |s| && s[i..j] == field && s[j] == ':' && ':' !in field
    ensures IndexOfFrom(s, ':', i) == Some(j)
  {
    assert forall k :: i <= k < j ==> s[k] == field[k - i];
    IndexOfFromAt(s, ':', i, j);
  }

  /** The two fields, once both colons are located. */
  lemma ReadFieldsAt(s: string, i: nat, j: nat)
    requires IndexOf(s, ':') == Some(i) && i + 1 <= j < |s|
    requires IndexOfFrom(s, ':', i + 1) == Some(j)
    ensures ReadFields(s) == Some((s[i + 1..j], s[j + 1..]))
  {
  }

  // ---------------------------------------------------------------------
  // Command handlers, each on its own
  // ---------------------------------------------------------------------

  /** `cmdOn`: power, GSM and GPS switched on; nothing else changes. */
  function CmdOn(o: Options, sms: SmsData): (r: Reply)
    ensures r.options.gsmPower && r.options.isGsmEnabled && r.options.isGpsEnabled
    ensures r.options.(gsmPower := o.gsmPower, isGsmEnabled := o.isGsmEnabled,
                       isGpsEnabled := o.isGpsEnabled) == o
    ensures r.text == OkText(sms)
  {
    Reply(o.(gsmPower := true, isGsmEnabled := true, isGpsEnabled := true), OkText(sms))
  }

  /** `cmdOff`: only the power is switched off. */
  function CmdOff(o: Options, sms: SmsData): (r: Reply)
    ensures !r.options.gsmPower
    ensures r.options.(gsmPower := o.gsmPower) == o
    ensures r.text == OkText(sms)
  {
    Reply(o.(gsmPower := false), OkText(sms))
  }

  /** The report `cmdStatus` sends; measured values go through `String(x, n)`
      with one decimal for the voltage and the default two for the rest. */
  function StatusText(d: Telemetry, fmt: Formatter): (r: string)
    ensures "Status:" <= r
  {
    var report :=
      d.status + "\n"
      + "Voltage:" + fmt(d.voltage, 1) + "V\n"
      + "Temperature: " + fmt(d.temperature, 2) + "\U{B0}C\n"
      + "Humidity: " + fmt(d.humidity, 2) + "%\n"
      + "Pressure: " + fmt(d.pressure, 2) + "hPa\n"
      + "Modem Info:" + d.modemInfo + "\n"
      + "Longitude:" + d.longitude + "\n"
      + "Latitude:" + d.latitude + "\n"
      + "Altitude:" + d.altitude + "\n"
      + "Satellites:" + d.satellites + "\n";
    "Status:" + report
  }

  /** `cmdStatus`: reports and changes nothing. */
  function CmdStatus(o: Options, d: Telemetry, fmt: Formatter): (r: Reply)
    ensures r.options == o
    ensures "Status:" <= r.text
  {
    Reply(o, StatusText(d, fmt))
  }

  /** The map link `cmdGps` sends without an argument. */
  function MapsLink(d: Telemetry): (r: string)
    ensures MapsUrl <= r
  {
    MapsUrl + d.latitude + "," + d.longitude
  }

  /** The link reads back as the position: its query is the latitude up to
      the first comma and the longitude after it, whenever the latitude
      holds no comma, as a formatted coordinate does not. */
  lemma MapsLinkReadsBack(d: Telemetry)
    requires ',' !in d.latitude
    ensures MapsUrl <= MapsLink(d)
    ensures var q := MapsLink(d)[|MapsUrl|..];
            IndexOf(q, ',') == Some(|d.latitude|)
            && q[..|d.latitude|] == d.latitude && q[|d.latitude| + 1..] == d.longitude
  {
    var q := MapsLink(d)[|MapsUrl|..];
    assert q == d.latitude + [','] + d.longitude;
    IndexOfAfterHead(d.latitude, ',', d.longitude);
  }

  /** `cmdDefault`: the help text, nothing changed. */
  function CmdDefault(o: Options): (r: Reply)
    ensures r.options == o && r.text == HelpText
  {
    Reply(o, HelpText)
  }

  /** `cmdGps`: without a colon it sends the map link and changes nothing;
      with one it sets the GPS interval to `atoi` of the text after it. */
  function CmdGps(o: Options, d: Telemetry, sms: SmsData): (r: Reply)
    ensures ':' !in sms.message ==> r == Reply(o, MapsLink(d))
    ensures ':' in sms.message ==>
      r.options == o.(gpsCheckIntervalSec := Atoi(ReadString(sms.message).value))
      && r.text == OkText(sms)
  {
    if ':' !in sms.message then Reply(o, MapsLink(d))
    else
      match ReadLong(sms.message)
      case Some(v) => Reply(o.(gpsCheckIntervalSec := v), OkText(sms))
      case None => CmdDefault(o)
  }

  lemma MapsLinkIsNotHelp(d: Telemetry)
    ensures MapsLink(d) != HelpText
  {
    assert MapsLink(d)[0] == 'h';
    assert HelpText[0] == 'w';
  }

  lemma OkTextIsNotHelp(sms: SmsData)
    ensures OkText(sms) != HelpText
  {
    var t := OkText(sms);
    assert t[|t| - 1] == 'K';
  }

  /** The fallback branch of `cmdGps` can never be taken: the colon test
      before it guarantees that `readValues` succeeds. */
  lemma CmdGpsNeverHelps(o: Options, d: Telemetry, sms: SmsData)
    ensures CmdGps(o, d, sms).text != HelpText
  {
    MapsLinkIsNotHelp(d);
    OkTextIsNotHelp(sms);
  }

  /** `cmdSms`: the SMS interval becomes `atoi` of the text after the first
      colon; without a colon the help text is sent and nothing changes. */
  function CmdSms(o: Options, sms: SmsData): (r: Reply)
    ensures ':' in sms.message ==>
      r == Reply(o.(smsCheckIntervalSec := Atoi(ReadString(sms.message).value)), OkText(sms))
    ensures ':' !in sms.message ==> r == CmdDefault(o)
  {
    match ReadLong(sms.message)
    case Some(v) => Reply(o.(smsCheckIntervalSec := v), OkText(sms))
    case None => CmdDefault(o)
  }

  /** `cmdMqtt`: the two sending intervals become the two numbers after the
      first and the second colon; with fewer than two colons the help text
      is sent and nothing changes. */
  function CmdMqtt(o: Options, sms: SmsData): (r: Reply)
    ensures Count(sms.message, ':') >= 2 ==>
      r.text == OkText(sms)
      && r.options.(mqttSendOnMoveEverySec := o.mqttSendOnMoveEverySec,
                    mqttSendOnNonMoveEverySec := o.mqttSendOnNonMoveEverySec) == o
    ensures Count(sms.message, ':') < 2 ==> r == CmdDefault(o)
  {
    match ReadTwo(sms.message)
    case Some((moving, standing)) =>
      Reply(o.(mqttSendOnMoveEverySec := moving, mqttSendOnNonMoveEverySec := standing), OkText(sms))
    case None => CmdDefault(o)
  }

  /** `cmdPhone`: the phone number becomes the text after the first colon,
      and the confirmation already goes to the new number. */
  function CmdPhone(o: Options, sms: SmsData): (r: Reply)
    ensures ':' in sms.message ==>
      r == Reply(o.(phoneNumber := ReadString(sms.message).value), OkText(sms))
    ensures ':' !in sms.message ==> r == CmdDefault(o)
  {
    match ReadString(sms.message)
    case Some(number) => Reply(o.(phoneNumber := number), OkText(sms))
    case None => CmdDefault(o)
  }

  /** `mqtt:<moving>:<standing>` handed to `cmdMqtt` directly sets both
      intervals. */
  lemma CmdMqttOfTwoNumbers(o: Options, sms: SmsData, head: string, moving: string, standing: string)
    requires ':' !in head && ':' !in moving
    requires sms.message == head + ":" + moving + ":" + standing
    ensures CmdMqtt(o, sms).options
      == o.(mqttSendOnMoveEverySec := Atoi(moving), mqttSendOnNonMoveEverySec := Atoi(standing))
  {
    assert head + ":" + moving + ":" + standing == head + ":" + (moving + ":" + standing);
    ReadTwoOfColons(head, moving, standing);
  }

  // ---------------------------------------------------------------------
  // Dispatch
  // ---------------------------------------------------------------------

  datatype Command = On | Off | Status | Gps | Sms | Mqtt | Phone | Unknown

  /** The whole lower-cased message that selects a command. */
  function Keyword(c: Command): string
    requires c != Unknown
  {
    match c
    case On => "on"
    case Off => "off"
    case Status => "status"
    case Gps => "gps"
    case Sms => "sms"
    case Mqtt => "mqtt"
    case Phone => "phone"
  }

  /** The `if`/`else if` chain of `checkSms`: a command is selected exactly
      when the text equals its keyword. */
  function Classify(lower: string): (c: Command)
    ensures forall k :: k != Unknown ==> (c == k <==> Keyword(k) == lower)
  {
    if lower == "on" then On
    else if lower == "off" then Off
    else if lower == "status" then Status
    else if lower == "gps" then Gps
    else if lower == "sms" then Sms
    else if lower == "mqtt" then Mqtt
    else if lower == "phone" then Phone
    else Unknown
  }

  /** A message with a colon never matches a keyword: lower-casing keeps the
      colon, and no keyword holds one. */
  lemma ColonIsUnknown(message: string)
    requires ':' in message
    ensures Classify(Lower(message)) == Unknown
  {
    LowerKeepsNonLetters(message, ':');
  }

  /** A message that selects a command holds no colon. */
  lemma KnownHasNoColon(message: string)
    requires Classify(Lower(message)) != Unknown
    ensures ':' !in message
  {
    LowerKeepsNonLetters(message, ':');
  }

  /** One pass of the `checkSms` loop body after the delete: dispatch on the
      lower-cased message and run the handler on the original one. */
  function Handle(o: Options, d: Telemetry, fmt: Formatter, sms: SmsData): (r: Reply)
    ensures ':' in sms.message ==> r == CmdDefault(o)
  {
    assert ':' in sms.message ==> Classify(Lower(sms.message)) == Unknown by {
      if ':' in sms.message { ColonIsUnknown(sms.message); }
    }
    Run(Classify(Lower(sms.message)), o, d, fmt, sms)
  }

  /** The handler a command selects, run on the original message. */
  function Run(c: Command, o: Options, d: Telemetry, fmt: Formatter, sms: SmsData): Reply {
    match c
    case On => CmdOn(o, sms)
    case Off => CmdOff(o, sms)
    case Status => CmdStatus(o, d, fmt)
    case Gps => CmdGps(o, d, sms)
    case Sms => CmdSms(o, sms)
    case Mqtt => CmdMqtt(o, sms)
    case Phone => CmdPhone(o, sms)
    case Unknown => CmdDefault(o)
  }

  predicate IsOn(sms: SmsData) {
    Lower(sms.message) == "on"
  }

  predicate IsOff(sms: SmsData) {
    Lower(sms.message) == "off"
  }

  /** Reference for what a message does to the options when it goes through
      the dispatcher: only "on" and "off", in any letter case, change them. */
  function Effect(o: Options, sms: SmsData): Options {
    if IsOn(sms) then o.(gsmPower := true, isGsmEnabled := true, isGpsEnabled := true)
    else if IsOff(sms) then o.(gsmPower := false)
    else o
  }

  /** Reference for the text a message is answered with through the
      dispatcher, whatever the options: the interval and phone commands are
      only reached without an argument and so always answer with help. */
  function ReplyText(d: Telemetry, fmt: Formatter, sms: SmsData): string {
    var lower := Lower(sms.message);
    if lower == "on" || lower == "off" then OkText(sms)
    else if lower == "status" then StatusText(d, fmt)
    else if lower == "gps" then MapsLink(d)
    else HelpText
  }

  /** Through the dispatcher a message changes the options as `Effect` says
      and is answered with `ReplyText`. */
  lemma HandleIsReference(o: Options, d: Telemetry, fmt: Formatter, sms: SmsData)
    ensures Handle(o, d, fmt, sms) == Reply(Effect(o, sms), ReplyText(d, fmt, sms))
  {
    var c := Classify(Lower(sms.message));
    if c != Unknown {
      KnownHasNoColon(sms.message);
    }
    if c == Sms || c == Mqtt || c == Phone {
      NoColonNoArguments(sms.message);
    }
  }

  /** Without a colon none of the argument parsers succeeds. */
  lemma NoColonNoArguments(message: string)
    requires ':' !in message
    ensures ReadString(message).None? && ReadLong(message).None? && ReadTwo(message).None?
  {
    CountZeroIffAbsent(message, ':');
  }

  // ---------------------------------------------------------------------
  // Draining the inbox
  // ---------------------------------------------------------------------

  /** The options after a batch and the modem traffic it caused. */
  datatype Outcome = Outcome(options: Options, log: seq<Event>)

  /** The `while (getSMS(sms))` loop of `checkSms` over the messages the
      modem yields, in order: delete, then dispatch, then one reply to the
      phone number the options hold after the handler ran. */
  function Drain(o: Options, d: Telemetry, fmt: Formatter, inbox: seq<SmsData>): (r: Outcome)
    ensures |r.log| == 2 * |inbox|
    decreases |inbox|
  {
    if inbox == [] then Outcome(o, [])
    else
      var rep := Handle(o, d, fmt, inbox[0]);
      var rest := Drain(rep.options, d, fmt, inbox[1..]);
      Outcome(rest.options, [Deleted(inbox[0].index), Sent(rep.options.phoneNumber, rep.text)] + rest.log)
  }

  /** Reference for `gsmPower` after a batch: the last "on" or "off" wins,
      and without either the value is kept. */
  function LastSwitch(inbox: seq<SmsData>, initial: bool): bool {
    if inbox == [] then initial
    else
      var last := inbox[|inbox| - 1];
      if IsOn(last) then true
      else if IsOff(last) then false
      else LastSwitch(inbox[..|inbox| - 1], initial)
  }

  predicate AnyOn(inbox: seq<SmsData>) {
    exists i :: 0 <= i < |inbox| && IsOn(inbox[i])
  }

  lemma AnyOnSnoc(front: seq<SmsData>, last: SmsData)
    ensures AnyOn(front + [last]) <==> AnyOn(front) || IsOn(last)
  {
    var inbox := front + [last];
    if AnyOn(inbox) && !IsOn(last) {
      var i :| 0 <= i < |inbox| && IsOn(inbox[i]);
      assert inbox[i] == front[i];
    }
    if AnyOn(front) {
      var i :| 0 <= i < |front| && IsOn(front[i]);
      assert inbox[i] == front[i];
    }
    if IsOn(last) {
      assert inbox[|front|] == last;
    }
  }

  /** Processing one more message after a batch. */
  lemma {:induction false} DrainSnoc(o: Options, d: Telemetry, fmt: Formatter,
                                     inbox: seq<SmsData>, sms: SmsData)
    ensures var before := Drain(o, d, fmt, inbox);
            var rep := Handle(before.options, d, fmt, sms);
            Drain(o, d, fmt, inbox + [sms])
              == Outcome(rep.options, before.log + [Deleted(sms.index), Sent(rep.options.phoneNumber, rep.text)])
    decreases |inbox|
  {
    if inbox == [] {
      assert inbox + [sms] == [sms];
      assert [sms][1..] == [];
    } else {
      var rep0 := Handle(o, d, fmt, inbox[0]);
      assert (inbox + [sms])[0] == inbox[0];
      assert (inbox + [sms])[1..] == inbox[1..] + [sms];
      DrainSnoc(rep0.options, d, fmt, inbox[1..], sms);
    }
  }

  /** The options after a batch: `gsmPower` as the last switch left it,
      GSM and GPS enabled if they were or any message was "on", and every
      other option, the intervals and the phone number in particular,
      unchanged. */
  lemma {:induction false} DrainOptions(o: Options, d: Telemetry, fmt: Formatter, inbox: seq<SmsData>)
    ensures Drain(o, d, fmt, inbox).options
      == o.(gsmPower := LastSwitch(inbox, o.gsmPower),
            isGsmEnabled := o.isGsmEnabled || AnyOn(inbox),
            isGpsEnabled := o.isGpsEnabled || AnyOn(inbox))
  {
    if inbox != [] {
      var front, last := inbox[..|inbox| - 1], inbox[|inbox| - 1];
      assert inbox == front + [last];
      DrainSnoc(o, d, fmt, front, last);
      DrainOptions(o, d, fmt, front);
      HandleIsReference(Drain(o, d, fmt, front).options, d, fmt, last);
      AnyOnSnoc(front, last);
    }
  }

  /** The first message of a batch keeps the phone number, is deleted and
      gets its reply before the rest of the batch runs. */
  lemma DrainFirst(o: Options, d: Telemetry, fmt: Formatter, inbox: seq<SmsData>)
    requires inbox != []
    ensures var rep := Handle(o, d, fmt, inbox[0]);
            rep.options.phoneNumber == o.phoneNumber
            && Drain(o, d, fmt, inbox).log
               == [Deleted(inbox[0].index), Sent(o.phoneNumber, ReplyText(d, fmt, inbox[0]))]
                  + Drain(rep.options, d, fmt, inbox[1..]).log
  {
    HandleIsReference(o, d, fmt, inbox[0]);
  }

  /** The options a batch goes on with after its first message, named
      without unfolding how that message is handled. */
  lemma DrainStep(o: Options, d: Telemetry, fmt: Formatter, inbox: seq<SmsData>)
    returns (next: Options)
    requires inbox != []
    ensures next.phoneNumber == o.phoneNumber
    ensures Drain(o, d, fmt, inbox).log
            == [Deleted(inbox[0].index), Sent(o.phoneNumber, ReplyText(d, fmt, inbox[0]))]
               + Drain(next, d, fmt, inbox[1..]).log
  {
    DrainFirst(o, d, fmt, inbox);
    next := Handle(o, d, fmt, inbox[0]).options;
  }

  /** The traffic of message `i` of a batch. */
  lemma {:induction false} DrainLogAt(o: Options, d: Telemetry, fmt: Formatter,
                                      inbox: seq<SmsData>, i: nat)
    requires i < |inbox|
    ensures Drain(o, d, fmt, inbox).log[2 * i] == Deleted(inbox[i].index)
    ensures Drain(o, d, fmt, inbox).log[2 * i + 1] == Sent(o.phoneNumber, ReplyText(d, fmt, inbox[i]))
    decreases i
  {
    var next := DrainStep(o, d, fmt, inbox);
    if i > 0 {
      var rest := Drain(next, d, fmt, inbox[1..]).log;
      DrainLogAt(next, d, fmt, inbox[1..], i - 1);
      PairPrefixIndex(Deleted(inbox[0].index), Sent(o.phoneNumber, ReplyText(d, fmt, inbox[0])), rest, i - 1);
      assert inbox[1..][i - 1] == inbox[i];
    }
  }

  lemma PairPrefixIndex(a: Event, b: Event, rest: seq<Event>, j: nat)
    requires 2 * j + 1 < |rest|
    ensures ([a, b] + rest)[2 * (j + 1)] == rest[2 * j]
    ensures ([a, b] + rest)[2 * (j + 1) + 1] == rest[2 * j + 1]
  {
  }

  /** The traffic of a batch: for every message in queue order, first its
      delete and then exactly one reply, addressed to the phone number held
      before the batch and worded as `ReplyText` says. */
  lemma DrainLog(o: Options, d: Telemetry, fmt: Formatter, inbox: seq<SmsData>)
    ensures forall i :: 0 <= i < |inbox| ==>
      Drain(o, d, fmt, inbox).log[2 * i] == Deleted(inbox[i].index)
      && Drain(o, d, fmt, inbox).log[2 * i + 1] == Sent(o.phoneNumber, ReplyText(d, fmt, inbox[i]))
  {
    forall i | 0 <= i < |inbox|
      ensures Drain(o, d, fmt, inbox).log[2 * i] == Deleted(inbox[i].index)
      ensures Drain(o, d, fmt, inbox).log[2 * i + 1] == Sent(o.phoneNumber, ReplyText(d, fmt, inbox[i]))
    {
      DrainLogAt(o, d, fmt, inbox, i);
    }
  }

  /** `checkSms`: with the modem inactive nothing is read, deleted or sent
      and the inbox stays as it was; otherwise every message is drained:
      the options change as `DrainOptions` says, and each message is deleted
      and answered with its `ReplyText` in queue order. */
  function CheckSms(o: Options, d: Telemetry, fmt: Formatter, gsmActive: bool,
                    inbox: seq<SmsData>): (r: (Outcome, seq<SmsData>))
    ensures !gsmActive ==> r == (Outcome(o, []), inbox)
    ensures gsmActive ==> r.1 == [] && |r.0.log| == 2 * |inbox|
    ensures gsmActive ==>
      r.0.options == o.(gsmPower := LastSwitch(inbox, o.gsmPower),
                        isGsmEnabled := o.isGsmEnabled || AnyOn(inbox),
                        isGpsEnabled := o.isGpsEnabled || AnyOn(inbox))
    ensures gsmActive ==> forall i :: 0 <= i < |inbox| ==>
      r.0.log[2 * i] == Deleted(inbox[i].index)
      && r.0.log[2 * i + 1] == Sent(o.phoneNumber, ReplyText(d, fmt, inbox[i]))
  {
    if !gsmActive then (Outcome(o, []), inbox)
    else (DrainOptions(o, d, fmt, inbox); DrainLog(o, d, fmt, inbox); (Drain(o, d, fmt, inbox), []))
  }

  // ---------------------------------------------------------------------
  // The poll gate
  // ---------------------------------------------------------------------

  /** The interpreter's own state: the second of the last inbox check. */
  datatype Poller = Poller(lastCheckSec: int)

  /** The constructor starts the clock at zero. */
  const Start := Poller(0)

  /** What a call of `handleClient` leaves behind: the gate, the options
      with their save counter, the modem traffic, and the messages still
      waiting in the modem. */
  datatype Poll = Poll(poller: Poller, store: Store, log: seq<Event>, pending: seq<SmsData>)

  predicate Due(p: Poller, o: Options, currSec: int) {
    currSec - p.lastCheckSec > o.smsCheckIntervalSec
  }

  /** `handleClient` at second `currSec`: the inbox is checked, and the gate
      moved to `currSec`, exactly when more than the SMS interval has passed
      since the last check; even an inactive modem moves the gate. A check
      on an active modem changes the options and sends the events
      `CheckSms` states. The interpreter never saves the options. */
  function HandleClient(p: Poller, s: Store, d: Telemetry, fmt: Formatter, gsmActive: bool,
                        inbox: seq<SmsData>, currSec: int): (r: Poll)
    ensures r.store.saves == s.saves
    ensures Due(p, s.options, currSec) ==> r.poller == Poller(currSec)
    ensures Due(p, s.options, currSec) && !gsmActive ==> r == Poll(Poller(currSec), s, [], inbox)
    ensures Due(p, s.options, currSec) && gsmActive ==> r.pending == [] && |r.log| == 2 * |inbox|
    ensures Due(p, s.options, currSec) && gsmActive ==>
      r.store.options
        == s.options.(gsmPower := LastSwitch(inbox, s.options.gsmPower),
                      isGsmEnabled := s.options.isGsmEnabled || AnyOn(inbox),
                      isGpsEnabled := s.options.isGpsEnabled || AnyOn(inbox))
    ensures Due(p, s.options, currSec) && gsmActive ==> forall i :: 0 <= i < |inbox| ==>
      r.log[2 * i] == Deleted(inbox[i].index)
      && r.log[2 * i + 1] == Sent(s.options.phoneNumber, ReplyText(d, fmt, inbox[i]))
    ensures !Due(p, s.options, currSec) ==> r == Poll(p, s, [], inbox)
  {
    if Due(p, s.options, currSec) then
      var (outcome, pending) := CheckSms(s.options, d, fmt, gsmActive, inbox);
      Poll(Poller(currSec), Store(outcome.options, s.saves), outcome.log, pending)
    else Poll(p, s, [], inbox)
  }

  /** A second call no later than the SMS interval after a check is a no-op:
      no message can change the interval. */
  lemma PollAgainTooSoon(p: Poller, s: Store, d: Telemetry, fmt: Formatter, gsmActive: bool,
                         inbox: seq<SmsData>, t1: int, inbox2: seq<SmsData>, t2: int)
    requires Due(p, s.options, t1)
    requires t2 - t1 <= s.options.smsCheckIntervalSec
    ensures var r1 := HandleClient(p, s, d, fmt, gsmActive, inbox, t1);
            HandleClient(r1.poller, r1.store, d, fmt, gsmActive, inbox2, t2)
              == Poll(r1.poller, r1.store, [], inbox2)
  {
    if gsmActive {
      DrainOptions(s.options, d, fmt, inbox);
    }
  }

  /** After start-up the first check waits until the clock has passed the
      SMS interval; until then a call changes nothing. */
  lemma FirstPollAfterStart(s: Store, d: Telemetry, fmt: Formatter, gsmActive: bool,
                            inbox: seq<SmsData>, currSec: int)
    ensures currSec > s.options.smsCheckIntervalSec ==>
      HandleClient(Start, s, d, fmt, gsmActive, inbox, currSec).poller == Poller(currSec)
    ensures currSec <= s.options.smsCheckIntervalSec ==>
      HandleClient(Start, s, d, fmt, gsmActive, inbox, currSec) == Poll(Start, s, [], inbox)
  {
  }

  // ---------------------------------------------------------------------
  // Dispatch on the command word
  // ---------------------------------------------------------------------

  /** The command word of a lower-cased message: the text before its first
      colon, or the whole text when it has none. */
  function CommandWord(lower: string): (r: string)
    ensures r <= lower && ':' !in r
    ensures |r| < |lower| ==> lower[|r|] == ':'
  {
    match IndexOf(lower, ':')
    case None => lower
    case Some(i) => lower[..i]
  }

  /** The dispatch the help text advertises: the command is selected by the
      word before the first colon, so that "gps:15", "sms:15",
      "mqtt:30:60" and "phone:1234" reach the handlers that read their
      arguments. */
  function HandleByWord(o: Options, d: Telemetry, fmt: Formatter, sms: SmsData): Reply {
    Run(Classify(CommandWord(Lower(sms.message))), o, d, fmt, sms)
  }

  /** On a message without a colon the corrected dispatch is the original. */
  lemma HandleByWordWithoutColon(o: Options, d: Telemetry, fmt: Formatter, sms: SmsData)
    requires ':' !in sms.message
    ensures HandleByWord(o, d, fmt, sms) == Handle(o, d, fmt, sms)
  {
    LowerKeepsNonLetters(sms.message, ':');
  }

  /** A keyword is made of lower-case letters only. */
  lemma KeywordIsLower(c: Command)
    requires c != Unknown
    ensures Lower(Keyword(c)) == Keyword(c) && ':' !in Keyword(c)
  {
  }

  /** A message that starts with a keyword and a colon, in any letter case
      of the keyword, has that keyword as its command word. */
  lemma {:induction false} WordSelects(c: Command, message: string)
    requires c != Unknown && Keyword(c) + ":" <= Lower(message)
    ensures Classify(CommandWord(Lower(message))) == c
  {
    var k := Keyword(c);
    var lower := Lower(message);
    KeywordIsLower(c);
    assert lower[..|k|] == k;
    assert lower[|k|] == ':' by { assert lower[|k|] == (k + ":")[|k|]; }
    assert lower == lower[..|k|] + [':'] + lower[|k| + 1..];
    IndexOfAfterHead(k, ':', lower[|k| + 1..]);
    assert CommandWord(lower) == k;
  }

  /** A message that starts with a keyword and a colon, in any letter case
      of the keyword and whatever follows, reaches the keyword's handler
      under the corrected dispatch. */
  lemma HandleByWordReachesHandler(o: Options, d: Telemetry, fmt: Formatter, c: Command, sms: SmsData)
    requires c != Unknown && Keyword(c) + ":" <= Lower(sms.message)
    ensures HandleByWord(o, d, fmt, sms) == Run(c, o, d, fmt, sms)
    ensures c == Gps ==> HandleByWord(o, d, fmt, sms) == CmdGps(o, d, sms)
    ensures c == Sms ==> HandleByWord(o, d, fmt, sms) == CmdSms(o, sms)
    ensures c == Mqtt ==> HandleByWord(o, d, fmt, sms) == CmdMqtt(o, sms)
    ensures c == Phone ==> HandleByWord(o, d, fmt, sms) == CmdPhone(o, sms)
  {
    WordSelects(c, sms.message);
  }

  /** Under the corrected dispatch a message starting with "gps:", in any
      letter case, sets the GPS interval to `atoi` of the rest, so "gps:15"
      and "GPS:15" set it to 15. */
  lemma HandleByWordSetsGpsInterval(o: Options, d: Telemetry, fmt: Formatter, sms: SmsData)
    requires "gps:" <= Lower(sms.message)
    ensures HandleByWord(o, d, fmt, sms)
      == Reply(o.(gpsCheckIntervalSec := Atoi(sms.message[4..])), OkText(sms))
  {
    HandleByWordReachesHandler(o, d, fmt, Gps, sms);
    CmdGpsAfterWord(o, d, sms);
  }

  lemma CmdGpsAfterWord(o: Options, d: Telemetry, sms: SmsData)
    requires "gps:" <= Lower(sms.message)
    ensures CmdGps(o, d, sms)
      == Reply(o.(gpsCheckIntervalSec := Atoi(sms.message[4..])), OkText(sms))
  {
    ReadStringAfterKeyword(sms.message, "gps");
  }

  /** Under the corrected dispatch a message starting with "sms:", in any
      letter case, sets the SMS interval to `atoi` of the rest. */
  lemma HandleByWordSetsSmsInterval(o: Options, d: Telemetry, fmt: Formatter, sms: SmsData)
    requires "sms:" <= Lower(sms.message)
    ensures HandleByWord(o, d, fmt, sms)
      == Reply(o.(smsCheckIntervalSec := Atoi(sms.message[4..])), OkText(sms))
  {
    HandleByWordReachesHandler(o, d, fmt, Sms, sms);
    CmdSmsAfterWord(o, sms);
  }

  lemma CmdSmsAfterWord(o: Options, sms: SmsData)
    requires "sms:" <= Lower(sms.message)
    ensures CmdSms(o, sms)
      == Reply(o.(smsCheckIntervalSec := Atoi(sms.message[4..])), OkText(sms))
  {
    ReadStringAfterKeyword(sms.message, "sms");
  }

  /** Under the corrected dispatch a message starting with "phone:", in any
      letter case, sets the phone number to the rest. */
  lemma HandleByWordSetsPhone(o: Options, d: Telemetry, fmt: Formatter, sms: SmsData)
    requires "phone:" <= Lower(sms.message)
    ensures HandleByWord(o, d, fmt, sms) == Reply(o.(phoneNumber := sms.message[6..]), OkText(sms))
  {
    HandleByWordReachesHandler(o, d, fmt, Phone, sms);
    CmdPhoneAfterWord(o, sms);
  }

  lemma CmdPhoneAfterWord(o: Options, sms: SmsData)
    requires "phone:" <= Lower(sms.message)
    ensures CmdPhone(o, sms) == Reply(o.(phoneNumber := sms.message[6..]), OkText(sms))
  {
    ReadStringAfterKeyword(sms.message, "phone");
  }

  /** Under the corrected dispatch a message "mqtt:<moving>:<standing>", the
      keyword in any letter case and its second colon at `j`, sets both MQTT intervals to `atoi` of the
      two fields. */
  lemma HandleByWordSetsMqttIntervals(o: Options, d: Telemetry, fmt: Formatter, sms: SmsData, j: nat)
    requires "mqtt:" <= Lower(sms.message)
    requires 5 <= j < |sms.message| && sms.message[j] == ':' && ':' !in sms.message[5..j]
    ensures HandleByWord(o, d, fmt, sms)
      == Reply(o.(mqttSendOnMoveEverySec := Atoi(sms.message[5..j]),
                  mqttSendOnNonMoveEverySec := Atoi(sms.message[j + 1..])),
               OkText(sms))
  {
    HandleByWordReachesHandler(o, d, fmt, Mqtt, sms);
    CmdMqttAfterWord(o, sms, j);
  }

  lemma CmdMqttAfterWord(o: Options, sms: SmsData, j: nat)
    requires "mqtt:" <= Lower(sms.message)
    requires 5 <= j < |sms.message| && sms.message[j] == ':' && ':' !in sms.message[5..j]
    ensures CmdMqtt(o, sms)
      == Reply(o.(mqttSendOnMoveEverySec := Atoi(sms.message[5..j]),
                  mqttSendOnNonMoveEverySec := Atoi(sms.message[j + 1..])),
               OkText(sms))
  {
    ReadStringAfterKeyword(sms.message, "mqtt");
    CmdMqttAt(o, sms, 4, j);
  }

  /** `cmdMqtt` on a message with its first colon at `i` and its second at
      `j` sets the intervals to `atoi` of the fields between them and after
      the second. */
  lemma CmdMqttAt(o: Options, sms: SmsData, i: nat, j: nat)
    requires i + 1 <= j < |sms.message| && IndexOf(sms.message, ':') == Some(i)
    requires sms.message[j] == ':' && ':' !in sms.message[i + 1..j]
    ensures CmdMqtt(o, sms)
      == Reply(o.(mqttSendOnMoveEverySec := Atoi(sms.message[i + 1..j]),
                  mqttSendOnNonMoveEverySec := Atoi(sms.message[j + 1..])),
               OkText(sms))
  {
    NextColon(sms.message, sms.message[i + 1..j], i + 1, j);
    ReadFieldsAt(sms.message, i, j);
  }

  /** A message that starts with a colon-free word and a colon, in any
      letter case, reads back the text after that colon: lower-casing
      neither makes nor removes a colon. */
  lemma ReadStringAfterKeyword(message: string, word: string)
    requires word + ":" <= Lower(message) && ':' !in word
    ensures IndexOf(message, ':') == Some(|word|)
    ensures ReadString(message) == Some(message[|word| + 1..])
  {
    var lower := Lower(message);
    assert message[|word|] == ':' by {
      assert lower[|word|] == (word + ":")[|word|] == LowerChar(message[|word|]);
    }
    assert ':' !in message[..|word|] by {
      forall j | 0 <= j < |word|
        ensures message[j] != ':'
      {
        assert lower[j] == word[j] == LowerChar(message[j]);
      }
    }
    ReadStringAfterWord(message, |word|);
  }

  /** A message whose first colon is at `k` reads back the text after it. */
  lemma ReadStringAfterWord(message: string, k: nat)
    requires k < |message| && message[k] == ':' && ':' !in message[..k]
    ensures IndexOf(message, ':') == Some(k)
    ensures ReadString(message) == Some(message[k + 1..])
  {
  }

  /** "ON" in capitals switches everything on, and the confirmation quotes
      the message as it was received. */
  lemma UpperCaseOn(o: Options, d: Telemetry, fmt: Formatter, index: int, sender: string)
    ensures Handle(o, d, fmt, SmsData(index, "ON", sender))
      == Reply(o.(gsmPower := true, isGsmEnabled := true, isGpsEnabled := true), "ON -> OK")
  {
    assert Lower("ON") == "on";
  }

  /** "gps:15", as the help text advertises it, is answered with the help
      text and changes nothing. */
  lemma AdvertisedGpsIntervalIsRejected(o: Options, d: Telemetry, fmt: Formatter, index: int, sender: string)
    ensures Handle(o, d, fmt, SmsData(index, "gps:15", sender)) == Reply(o, HelpText)
  {
    assert "gps:15"[3] == ':';
  }
}

=== FILE: str.dfy ===
/**
 Character and string primitives of the Arduino `String` class and of the C
 library (`isspace`, `tolower`, `atoi`) that the tracker's command parsers and
 option readers are built on. Strings are sequences of characters; only the
 ASCII behaviour of the C locale is modelled.
 */
module Str {

  datatype Option<T> = None | Some(value: T)

  /** `isspace` in the C locale. */
  predicate IsSpace(c: char) {
    c == ' ' || c == '\t' || c == '\n' || c == '\U{0B}' || c == '\U{0C}' || c == '\r'
  }

  predicate IsDigit(c: char) {
    '0' <= c <= '9'
  }

  predicate IsUpper(c: char) {
    'A' <= c <= 'Z'
  }

  predicate AllDigits(s: string) {
    forall k :: 0 <= k < |s| ==> IsDigit(s[k])
  }

  predicate EndsWith(s: string, suffix: string) {
    |suffix| <= |s| && s[|s| - |suffix|..] == suffix
  }

  /** The number of occurrences of `c` in `s`. */
  function Count(s: string, c: char): nat {
    if s == [] then 0 else (if s[0] == c then 1 else 0) + Count(s[1..], c)
  }

  lemma {:induction false} CountAppend(a: string, b: string, c: char)
    ensures Count(a + b, c) == Count(a, c) + Count(b, c)
  {
    if a == [] {
      assert a + b == b;
    } else {
      assert (a + b)[0] == a[0];
      assert (a + b)[1..] == a[1..] + b;
      CountAppend(a[1..], b, c);
    }
  }

  lemma {:induction false} CountZeroIffAbsent(s: string, c: char)
    ensures Count(s, c) == 0 <==> c !in s
  {
    if s != [] {
      assert s == [s[0]] + s[1..];
      CountZeroIffAbsent(s[1..], c);
    }
  }

  /** `tolower` in the C locale: only the 26 ASCII capitals change. */
  function LowerChar(c: char): char {
    if IsUpper(c) then (c as int + 32) as char else c
  }

  /** `String::toLowerCase`, applied character by character. */
  function Lower(s: string): (r: string)
    ensures |r| == |s|
    ensures forall k :: 0 <= k < |s| ==> r[k] == LowerChar(s[k])
    ensures forall k :: 0 <= k < |r| ==> !IsUpper(r[k])
  {
    seq(|s|, k requires 0 <= k < |s| => LowerChar(s[k]))
  }

  /** Lower-casing only touches letters: any other character, the `:`
      separator in particular, occurs in the result exactly where it occurred
      in the input. */
  lemma LowerKeepsNonLetters(s: string, c: char)
    requires !IsUpper(c) && !('a' <= c <= 'z')
    ensures c in s <==> c in Lower(s)
  {
    if c in s {
      var k :| 0 <= k < |s| && s[k] == c;
      assert Lower(s)[k] == c;
    }
    if c in Lower(s) {
      var k :| 0 <= k < |Lower(s)| && Lower(s)[k] == c;
      assert s[k] == c;
    }
  }

  lemma LowerIdempotent(s: string)
    ensures Lower(Lower(s)) == Lower(s)
  {
  }

  /** `String::indexOf(c, from)`: the first position at or after `from`
      that holds `c`, or none (the source's -1). */
  function IndexOfFrom(s: string, c: char, from: nat): (r: Option<nat>)
    ensures r.Some? ==> from <= r.value < |s| && s[r.value] == c
    ensures r.Some? ==> forall k :: from <= k < r.value ==> s[k] != c
    ensures r.None? <==> forall k :: from <= k < |s| ==> s[k] != c
    decreases |s| - from
  {
    if from >= |s| then None
    else if s[from] == c then Some(from)
    else IndexOfFrom(s, c, from + 1)
  }

  /** The first `c` at or after `from` is the one no other `c` precedes. */
  lemma IndexOfFromAt(s: string, c: char, from: nat, j: nat)
    requires from <= j < |s| && s[j] == c
    requires forall k :: from <= k < j ==> s[k] != c
    ensures IndexOfFrom(s, c, from) == Some(j)
  {
  }

  /** `String::indexOf(c)`. */
  function IndexOf(s: string, c: char): (r: Option<nat>)
    ensures r.Some? <==> c in s
    ensures r.Some? ==> r.value < |s| && s[r.value] == c && c !in s[..r.value]
  {
    IndexOfFrom(s, c, 0)
  }

  /** `String::lastIndexOf(c)`: the last position that holds `c`, or none. */
  function LastIndexOf(s: string, c: char): (r: Option<nat>)
    ensures r.Some? <==> c in s
    ensures r.Some? ==> r.value < |s| && s[r.value] == c && c !in s[r.value + 1..]
  {
    if s == [] then None
    else if s[|s| - 1] == c then Some(|s| - 1)
    else
      var r := LastIndexOf(s[..|s| - 1], c);
      assert s == s[..|s| - 1] + [s[|s| - 1]];
      if r.Some? then
        assert s[r.value + 1..] == s[..|s| - 1][r.value + 1..] + [s[|s| - 1]];
        r
      else r
  }

  /** The first occurrence of `c` in `head + [c] + tail` sits right after
      `head` when `head` does not contain `c`. */
  lemma IndexOfAfterHead(head: string, c: char, tail: string)
    requires c !in head
    ensures IndexOf(head + [c] + tail, c) == Some(|head|)
  {
    var s := head + [c] + tail;
    assert s[|head|] == c;
    assert forall k :: 0 <= k < |head| ==> s[k] == head[k];
  }

  /** The characters that `strtol` and therefore `atoi` skip before a number. */
  function SkipSpace(s: string): (r: string)
    ensures |r| <= |s| && r == s[|s| - |r|..]
    ensures forall k :: 0 <= k < |s| - |r| ==> IsSpace(s[k])
    ensures |r| > 0 ==> !IsSpace(r[0])
  {
    if |s| > 0 && IsSpace(s[0]) then SkipSpace(s[1..]) else s
  }

  /** The longest prefix of `s` made of decimal digits. */
  function LeadingDigits(s: string): (r: string)
    ensures |r| <= |s| && r == s[..|r|]
    ensures AllDigits(r)
    ensures |r| < |s| ==> !IsDigit(s[|r|])
  {
    if |s| > 0 && IsDigit(s[0]) then [s[0]] + LeadingDigits(s[1..]) else ""
  }

  function DigitValue(c: char): nat
    requires IsDigit(c)
  {
    c as int - '0' as int
  }

  function DigitChar(d: nat): (c: char)
    requires d < 10
    ensures IsDigit(c) && DigitValue(c) == d
  {
    ('0' as int + d) as char
  }

  /** The value of a string of decimal digits, most significant first. */
  function DigitsValue(ds: string): nat
    requires AllDigits(ds)
  {
    if |ds| == 0 then 0 else 10 * DigitsValue(ds[..|ds| - 1]) + DigitValue(ds[|ds| - 1])
  }

  /** C `atoi`: skip leading white space, read an optional sign, then the
      digits up to the first non-digit; no digits give 0. The integer is
      unbounded, so C's undefined overflow never happens here. */
  function Atoi(s: string): int {
    var t := SkipSpace(s);
    if |t| > 0 && t[0] == '-' then -(DigitsValue(LeadingDigits(t[1..])) as int)
    else if |t| > 0 && t[0] == '+' then DigitsValue(LeadingDigits(t[1..]))
    else DigitsValue(LeadingDigits(t))
  }

  /** Arduino `String(long)`: decimal digits, with a leading minus sign for
      negative numbers. */
  function NatToString(n: nat): (r: string)
    ensures |r| > 0 && AllDigits(r)
  {
    if n < 10 then [DigitChar(n)] else NatToString(n / 10) + [DigitChar(n % 10)]
  }

  function IntToString(i: int): (r: string)
    ensures |r| > 0 && !IsSpace(r[0])
  {
    if i < 0 then "-" + NatToString(-i) else NatToString(i)
  }

  lemma {:induction false} DigitsValueOfNatToString(n: nat)
    ensures DigitsValue(NatToString(n)) == n
  {
    if n >= 10 {
      var a := NatToString(n / 10);
      var s := a + [DigitChar(n % 10)];
      assert s[..|s| - 1] == a;
      DigitsValueOfNatToString(n / 10);
    }
  }

  /** The digit run of `ds + rest` is exactly `ds` when `rest` does not
      continue it. */
  lemma {:induction false} LeadingDigitsOfDigitsThen(ds: string, rest: string)
    requires AllDigits(ds)
    requires |rest| == 0 || !IsDigit(rest[0])
    ensures LeadingDigits(ds + rest) == ds
  {
    if |ds| == 0 {
      assert ds + rest == rest;
    } else {
      var s := ds + rest;
      assert s[0] == ds[0];
      assert s[1..] == ds[1..] + rest;
      LeadingDigitsOfDigitsThen(ds[1..], rest);
      assert [ds[0]] + ds[1..] == ds;
    }
  }

  /** `atoi` of text that starts with a digit reads its digit run. */
  lemma AtoiOfDigitStart(s: string)
    requires |s| > 0 && IsDigit(s[0])
    ensures Atoi(s) == DigitsValue(LeadingDigits(s))
  {
    assert !IsSpace(s[0]);
    assert SkipSpace(s) == s;
    assert s[0] != '-' && s[0] != '+';
  }

  /** `atoi` of text that starts with a minus sign negates the digit run
      after it. */
  lemma AtoiOfMinusStart(s: string)
    requires |s| > 0 && s[0] == '-'
    ensures Atoi(s) == -(DigitsValue(LeadingDigits(s[1..])) as int)
  {
    assert !IsSpace(s[0]);
    assert SkipSpace(s) == s;
  }

  /** `atoi` of a digit run followed by text that does not continue it. */
  lemma AtoiOfDigitsThen(ds: string, rest: string)
    requires |ds| > 0 && AllDigits(ds)
    requires |rest| == 0 || !IsDigit(rest[0])
    ensures Atoi(ds + rest) == DigitsValue(ds)
  {
    var s := ds + rest;
    assert s[0] == ds[0];
    AtoiOfDigitStart(s);
    LeadingDigitsOfDigitsThen(ds, rest);
  }

  /** The same with a minus sign in front. */
  lemma AtoiOfMinusDigitsThen(ds: string, rest: string)
    requires |ds| > 0 && AllDigits(ds)
    requires |rest| == 0 || !IsDigit(rest[0])
    ensures Atoi("-" + ds + rest) == -(DigitsValue(ds) as int)
  {
    var s := ds + rest;
    var m := ['-'] + s;
    assert m == "-" + ds + rest;
    assert m[1..] == s;
    LeadingDigitsOfDigitsThen(ds, rest);
    AtoiOfMinusStart(m);
  }

  /** `atoi` reads back what `String(long)` wrote, whatever non-digit text
      follows the number. */
  lemma AtoiOfIntToString(i: int, rest: string)
    requires |rest| == 0 || !IsDigit(rest[0])
    ensures Atoi(IntToString(i) + rest) == i
  {
    if i < 0 {
      assert IntToString(i) + rest == "-" + NatToString(-i) + rest;
      AtoiOfMinusDigitsThen(NatToString(-i), rest);
      DigitsValueOfNatToString(-i);
    } else {
      AtoiOfDigitsThen(NatToString(i), rest);
      DigitsValueOfNatToString(i);
    }
  }

  /** Leading white space does not change what `atoi` reads. */
  lemma {:induction false} AtoiSkipsSpace(ws: string, s: string)
    requires forall k :: 0 <= k < |ws| ==> IsSpace(ws[k])
    ensures Atoi(ws + s) == Atoi(s)
  {
    SkipSpaceOfSpaces(ws, s);
  }

  lemma {:induction false} SkipSpaceOfSpaces(ws: string, s: string)
    requires forall k :: 0 <= k < |ws| ==> IsSpace(ws[k])
    ensures SkipSpace(ws + s) == SkipSpace(s)
  {
    if |ws| > 0 {
      assert (ws + s)[1..] == ws[1..] + s;
      SkipSpaceOfSpaces(ws[1..], s);
    } else {
      assert ws + s == s;
    }
  }

  /** Without a single digit `atoi` gives 0: non-numeric text degrades to
      zero instead of being rejected. */
  lemma AtoiWithoutDigits(s: string)
    requires forall k :: 0 <= k < |s| ==> !IsDigit(s[k])
    ensures Atoi(s) == 0
  {
    var t := SkipSpace(s);
    if |t| > 0 {
      assert forall k :: 0 <= k < |t| ==> t[k] == s[|s| - |t| + k];
      if |t[1..]| > 0 {
        assert t[1..][0] == t[1];
      }
    }
  }
}

=== FILE: web_server.dfy ===
/**
 The rest of the web server's core: the power toggle and the measurement
 table of the main page (`handleLoadMainInfo`), and the mapping from a
 requested path to the stored file and its content type at the top of
 `loadFromSpiffs`.
 */
module WebServer {
  import opened Str
  import opened Options
  import Html
  import Settings

  // ---------------------------------------------------------------------
  // The main page
  // ---------------------------------------------------------------------

  /** The toggle at the top of `handleLoadMainInfo`: argument "o" equal to
      "1" flips the power switch and saves; anything else, an absent
      argument included, leaves the options and the save counter alone. */
  function MainToggle(s: Store, args: Settings.Args): (r: Store)
    ensures r.options.gsmPower != s.options.gsmPower <==> Settings.Arg(args, "o") == "1"
    ensures r.options.(gsmPower := s.options.gsmPower) == s.options
    ensures r.saves == s.saves + (if Settings.Arg(args, "o") == "1" then 1 else 0)
  {
    if Settings.Arg(args, "o") == "1" then Store(s.options.(gsmPower := !s.options.gsmPower), s.saves + 1)
    else s
  }

  /** Two toggles give back the original options, with two saves. */
  lemma ToggleTwiceRestores(s: Store, args: Settings.Args)
    requires Settings.Arg(args, "o") == "1"
    ensures MainToggle(MainToggle(s, args), args) == Store(s.options, s.saves + 2)
  {
  }

  /** One `AddTableTr(info, name, value)` call of the main page. */
  datatype Row = Row(name: string, value: string)

  /** The measurement rows of the main page as the source writes them: the
      "Pressure" row is filled with the temperature. */
  function MainRowsAsWritten(d: Telemetry, fmt: Formatter): seq<Row> {
    MeasurementRows(d, fmt, d.temperature)
  }

  /** The measurement rows with the pressure in the "Pressure" row. */
  function MainRows(d: Telemetry, fmt: Formatter): seq<Row> {
    MeasurementRows(d, fmt, d.pressure)
  }

  /** The rows of `handleLoadMainInfo` in order, with the value shown in
      the "Pressure" row as a parameter. The status and position rows only
      appear with a non-empty status, the power-saving row only with a
      non-negative countdown. */
  function MeasurementRows(d: Telemetry, fmt: Formatter, pressureShown: real): seq<Row> {
    (if d.status != "" then [Row("Status", d.status)] else [])
    + [ Row("Battery", fmt(d.voltage, 1) + " V"),
        Row("Temperature", fmt(d.temperature, 1) + " \U{B0}C"),
        Row("Humidity", fmt(d.humidity, 1) + " %"),
        Row("Pressure", fmt(pressureShown, 1) + " hPa") ]
    + (if d.status != ""
       then [ Row("Modem Info", d.modemInfo), Row("Longitude", d.longitude),
              Row("Latitude", d.latitude), Row("Altitude", d.altitude),
              Row("Satellites", d.satellites) ]
       else [])
    + (if d.secondsToDeepSleep >= 0
       then [Row("Power saving in ", IntToString(d.secondsToDeepSleep) + " Seconds")]
       else [])
  }

  /** The row named "Pressure" is the one holding the shown value, and
      there is exactly one. */
  lemma PressureRow(d: Telemetry, fmt: Formatter, pressureShown: real)
    ensures var rows := MeasurementRows(d, fmt, pressureShown);
            var k := if d.status != "" then 4 else 3;
            k < |rows| && rows[k] == Row("Pressure", fmt(pressureShown, 1) + " hPa")
            && forall j :: 0 <= j < |rows| && j != k ==> rows[j].name != "Pressure"
  {
  }

  /** The "Pressure" row of the corrected page shows the pressure. */
  lemma MainRowsShowPressure(d: Telemetry, fmt: Formatter)
    ensures forall j :: 0 <= j < |MainRows(d, fmt)| && MainRows(d, fmt)[j].name == "Pressure" ==>
      MainRows(d, fmt)[j].value == fmt(d.pressure, 1) + " hPa"
  {
    PressureRow(d, fmt, d.pressure);
  }

  lemma SameSuffixCancels(a: string, b: string, t: string)
    requires a + t == b + t
    ensures a == b
  {
    assert |a| == |b|;
    assert a == (a + t)[..|a|];
    assert b == (b + t)[..|b|];
  }

  /** As written, the "Pressure" row shows the temperature, so the page
      differs from the intended one whenever the two readings format
      differently. */
  lemma PressureRowShowsTemperature(d: Telemetry, fmt: Formatter)
    requires fmt(d.temperature, 1) != fmt(d.pressure, 1)
    ensures forall j :: 0 <= j < |MainRowsAsWritten(d, fmt)| && MainRowsAsWritten(d, fmt)[j].name == "Pressure" ==>
      MainRowsAsWritten(d, fmt)[j].value == fmt(d.temperature, 1) + " hPa"
    ensures MainRowsAsWritten(d, fmt) != MainRows(d, fmt)
  {
    PressureRow(d, fmt, d.temperature);
    PressureRow(d, fmt, d.pressure);
    var k := if d.status != "" then 4 else 3;
    if fmt(d.temperature, 1) + " hPa" == fmt(d.pressure, 1) + " hPa" {
      SameSuffixCancels(fmt(d.temperature, 1), fmt(d.pressure, 1), " hPa");
    }
    assert MainRowsAsWritten(d, fmt)[k] != MainRows(d, fmt)[k];
  }

  function NonEmptyRows(rows: seq<Row>): nat {
    if rows == [] then 0 else (if rows[0].value != "" then 1 else 0) + NonEmptyRows(rows[1..])
  }

  lemma SliceThrough(a: string, b: string, c: string)
    requires a <= b && b <= c
    ensures c[|a|..] == b[|a|..] + c[|b|..]
  {
  }

  /** The rows appended one after the other with `AddTableTr`: each row
      with a value opens six tags, one with an empty value adds nothing. */
  function RenderRows(info: string, rows: seq<Row>): (r: string)
    ensures info <= r
    ensures Count(r[|info|..], '<') == 6 * NonEmptyRows(rows)
    decreases |rows|
  {
    if rows == [] then
      assert info[|info|..] == [];
      info
    else
      var next := Html.AddTableTr(info, rows[0].name, rows[0].value);
      var r := RenderRows(next, rows[1..]);
      SliceThrough(info, next, r);
      CountAppend(next[|info|..], r[|next|..], '<');
      r
  }

  const BannerHead :=
    "<table style='width:100%'><tr><td style='width:100%'>"
    + "<div style='text-align:center;font-weight:bold;font-size:62px'>"
  const BannerTail := "</div></td></tr></table>"

  /** The big ON/OFF display under the table. The character after the "O"
      is stated because it is where "ON" and "OFF" differ; that the banner
      tells the power state is `BannerTellsState`. */
  function Banner(on: bool): (r: string)
    ensures BannerHead <= r && |r| >= |BannerHead| + 2
    ensures r[|BannerHead| + 1] == if on then 'N' else 'F'
  {
    BannerHead + (if on then "ON" else "OFF") + BannerTail
  }

  /** The banner shows the power state: two banners are equal exactly when
      the states are. */
  lemma BannerTellsState(a: bool, b: bool)
    ensures Banner(a) == Banner(b) <==> a == b
  {
    if a != b {
      assert Banner(a)[|BannerHead| + 1] != Banner(b)[|BannerHead| + 1];
    }
  }

  /** A table of rows as `AddTableBegin`, `AddTableTr` for each row and
      `AddTableEnd` write it. */
  function Table(rows: seq<Row>): string {
    Html.AddTableEnd(RenderRows(Html.AddTableBegin(""), rows))
  }

  /** A table opens one tag for its start, six for each row with a value
      and one for its end. */
  lemma TableTags(rows: seq<Row>)
    ensures Html.TableBegin <= Table(rows) && EndsWith(Table(rows), Html.TableEnd)
    ensures Count(Table(rows), '<') == 2 + 6 * NonEmptyRows(rows)
  {
    var body := RenderRows(Html.AddTableBegin(""), rows);
    assert Html.AddTableBegin("") == Html.TableBegin;
    TableBeginTags();
    TableEndTags();
    TableShape(Html.TableBegin, body, Html.TableEnd);
  }

  /** The measurement table of the main page, with the rows as the source
      writes them. */
  function MainTable(d: Telemetry, fmt: Formatter): (r: string)
    ensures Html.TableBegin <= r && EndsWith(r, Html.TableEnd)
    ensures Count(r, '<') == 2 + 6 * NonEmptyRows(MainRowsAsWritten(d, fmt))
  {
    TableTags(MainRowsAsWritten(d, fmt));
    Table(MainRowsAsWritten(d, fmt))
  }

  /** A text starting with `<` and holding no other `<` opens one tag. */
  lemma OneTag(rest: string)
    requires '<' !in rest
    ensures Count(['<'] + rest, '<') == 1
  {
    assert (['<'] + rest)[1..] == rest;
    CountZeroIffAbsent(rest, '<');
  }

  lemma TableBeginTags()
    ensures Count(Html.TableBegin, '<') == 1
  {
    var rest := "table style='width:100%'>";
    assert Html.TableBegin == ['<'] + rest;
    OneTag(rest);
  }

  lemma TableEndTags()
    ensures Count(Html.TableEnd, '<') == 1
  {
    var rest := "/table>";
    assert Html.TableEnd == ['<'] + rest;
    OneTag(rest);
  }

  lemma TableShape(b: string, body: string, e: string)
    requires b <= body && Count(b, '<') == 1 && Count(e, '<') == 1
    ensures EndsWith(body + e, e) && b <= body + e
    ensures Count(body + e, '<') == 2 + Count(body[|b|..], '<')
  {
    var r := body + e;
    assert r[|r| - |e|..] == e;
    assert r[..|b|] == body[..|b|];
    assert body == b + body[|b|..];
    CountAppend(b, body[|b|..], '<');
    CountAppend(body, e, '<');
  }

  /** The rendering of the first `k` rows followed by row `k` is the start
      of the rendering of all of them: rows are written in order. */
  lemma {:induction false} RenderRowsPrefix(info: string, rows: seq<Row>, k: nat)
    requires k < |rows|
    ensures Html.AddTableTr(RenderRows(info, rows[..k]), rows[k].name, rows[k].value) <= RenderRows(info, rows)
    decreases k
  {
    var next := Html.AddTableTr(info, rows[0].name, rows[0].value);
    assert RenderRows(info, rows) == RenderRows(next, rows[1..]);
    if k == 0 {
      assert rows[..0] == [];
    } else {
      var front, rest := rows[..k], rows[1..];
      assert rest[k - 1] == rows[k];
      assert front[0] == rows[0] && front[1..] == rest[..k - 1];
      assert RenderRows(info, front) == RenderRows(next, rest[..k - 1]);
      RenderRowsPrefix(next, rest, k - 1);
    }
  }

  /** Every row with a value shows up in the rendered text, as the row
      `AddTableTr` writes for its name and value. */
  lemma RenderRowsShows(info: string, rows: seq<Row>, k: nat)
    requires k < |rows| && rows[k].value != ""
    ensures exists i :: Html.At(RenderRows(info, rows), i, Html.Row(rows[k].name, rows[k].value))
  {
    var before := RenderRows(info, rows[..k]);
    var written := Html.AddTableTr(before, rows[k].name, rows[k].value);
    var row := Html.Row(rows[k].name, rows[k].value);
    RenderRowsPrefix(info, rows, k);
    Html.AppendedAt(before, written, row);
    Html.AtInLonger(written, row, |before|, RenderRows(info, rows));
  }

  /** Every row with a value is in the table. */
  lemma TableShows(rows: seq<Row>, k: nat)
    requires k < |rows| && rows[k].value != ""
    ensures exists i :: Html.At(Table(rows), i, Html.Row(rows[k].name, rows[k].value))
  {
    var row := Html.Row(rows[k].name, rows[k].value);
    var body := RenderRows(Html.AddTableBegin(""), rows);
    RenderRowsShows(Html.AddTableBegin(""), rows, k);
    var i :| Html.At(body, i, row);
    Html.AtInLonger(body, row, i, Html.AddTableEnd(body));
    assert Html.At(Table(rows), i, row);
  }

  /** Every measurement row with a value, as the source writes it, is on
      the page. */
  lemma MainTableShows(d: Telemetry, fmt: Formatter, k: nat)
    requires k < |MainRowsAsWritten(d, fmt)| && MainRowsAsWritten(d, fmt)[k].value != ""
    ensures var row := MainRowsAsWritten(d, fmt)[k];
            exists i :: Html.At(MainTable(d, fmt), i, Html.Row(row.name, row.value))
  {
    var rows := MainRowsAsWritten(d, fmt);
    var row := Html.Row(rows[k].name, rows[k].value);
    TableShows(rows, k);
    var i :| Html.At(Table(rows), i, row);
    assert MainTable(d, fmt) == Table(rows);
    assert Html.At(MainTable(d, fmt), i, row);
  }

  /** The page sent carries a "Pressure" row that shows the temperature. */
  lemma MainTableShowsTemperatureAsPressure(d: Telemetry, fmt: Formatter)
    ensures exists i :: Html.At(MainTable(d, fmt), i, Html.Row("Pressure", fmt(d.temperature, 1) + " hPa"))
  {
    PressureRow(d, fmt, d.temperature);
    var k := if d.status != "" then 4 else 3;
    assert MainRowsAsWritten(d, fmt)[k].value != "" by {
      var v := fmt(d.temperature, 1) + " hPa";
      assert v[|v| - 1] == 'a';
    }
    MainTableShows(d, fmt, k);
  }

  lemma EndsWithAppended(a: string, b: string)
    ensures EndsWith(a + b, b)
  {
    assert (a + b)[|a + b| - |b|..] == b;
  }

  lemma PrefixAppended(p: string, a: string, b: string)
    requires p <= a
    ensures p <= a + b
  {
    assert (a + b)[..|p|] == a[..|p|];
  }

  /** `handleLoadMainInfo`: the toggle first, then the measurement table,
      then the display of the power switch as it is after the toggle. */
  function MainInfo(s: Store, d: Telemetry, fmt: Formatter, args: Settings.Args): (r: (Store, string))
    ensures r.0 == MainToggle(s, args)
    ensures EndsWith(r.1, Banner(r.0.options.gsmPower))
    ensures MainTable(d, fmt) <= r.1 && Html.TableBegin <= r.1
  {
    var st := MainToggle(s, args);
    var table := MainTable(d, fmt);
    var banner := Banner(st.options.gsmPower);
    EndsWithAppended(table, banner);
    PrefixAppended(table, table, banner);
    PrefixAppended(Html.TableBegin, table, banner);
    (st, table + banner)
  }

  // ---------------------------------------------------------------------
  // Paths and content types of `loadFromSpiffs`
  // ---------------------------------------------------------------------

  const ExtensionCount := 11

  /** The extensions `loadFromSpiffs` checks after ".src", in its order. */
  function Extension(k: nat): (r: string)
    requires k < ExtensionCount
    ensures |r| >= 3 && r[0] == '.'
  {
    match k
    case 0 => ".html"
    case 1 => ".htm"
    case 2 => ".css"
    case 3 => ".js"
    case 4 => ".png"
    case 5 => ".gif"
    case 6 => ".jpg"
    case 7 => ".ico"
    case 8 => ".xml"
    case 9 => ".pdf"
    case _ => ".zip"
  }

  /** The content type each extension selects. */
  function TypeOf(k: nat): (r: string)
    requires k < ExtensionCount
    ensures r != Octet
  {
    match k
    case 0 => "text/html"
    case 1 => "text/html"
    case 2 => "text/css"
    case 3 => "application/javascript"
    case 4 => "image/png"
    case 5 => "image/gif"
    case 6 => "image/jpeg"
    case 7 => "image/x-icon"
    case 8 => "text/xml"
    case 9 => "application/pdf"
    case _ => "application/zip"
  }

  const Octet := "application/octet-stream"

  /** The `else if` chain from extension `k` on: the first extension the
      path ends with decides, and without one the type stays text/plain. */
  function TypeFrom(path: string, k: nat): (r: string)
    requires k <= ExtensionCount
    ensures r != Octet
    decreases ExtensionCount - k
  {
    if k == ExtensionCount then "text/plain"
    else if EndsWith(path, Extension(k)) then TypeOf(k)
    else TypeFrom(path, k + 1)
  }

  /** The last three characters of each extension tell it apart from every
      other one. */
  function ExtensionByTail(x: char, y: char, z: char): (r: Option<nat>)
    ensures r.Some? ==> r.value < ExtensionCount
  {
    if x == 't' && y == 'm' && z == 'l' then Some(0)
    else if x == 'h' && y == 't' && z == 'm' then Some(1)
    else if x == 'c' && y == 's' && z == 's' then Some(2)
    else if x == '.' && y == 'j' && z == 's' then Some(3)
    else if x == 'p' && y == 'n' && z == 'g' then Some(4)
    else if x == 'g' && y == 'i' && z == 'f' then Some(5)
    else if x == 'j' && y == 'p' && z == 'g' then Some(6)
    else if x == 'i' && y == 'c' && z == 'o' then Some(7)
    else if x == 'x' && y == 'm' && z == 'l' then Some(8)
    else if x == 'p' && y == 'd' && z == 'f' then Some(9)
    else if x == 'z' && y == 'i' && z == 'p' then Some(10)
    else None
  }

  function TailOf(s: string): Option<nat>
    requires |s| >= 3
  {
    ExtensionByTail(s[|s| - 3], s[|s| - 2], s[|s| - 1])
  }

  lemma ExtensionTailsDiffer(k: nat)
    requires k < ExtensionCount
    ensures TailOf(Extension(k)) == Some(k)
  {
  }

  /** A path ends with at most one of the extensions. */
  lemma {:induction false} OneExtensionAtMost(path: string, i: nat, j: nat)
    requires i < ExtensionCount && j < ExtensionCount
    requires EndsWith(path, Extension(i)) && EndsWith(path, Extension(j))
    ensures i == j
  {
    SameTail(path, Extension(i));
    SameTail(path, Extension(j));
    ExtensionTailsDiffer(i);
    ExtensionTailsDiffer(j);
  }

  lemma SameTail(path: string, e: string)
    requires |e| >= 3 && EndsWith(path, e)
    ensures TailOf(path) == TailOf(e)
  {
    var t := path[|path| - |e|..];
    assert t == e;
    assert path[|path| - 3] == t[|t| - 3];
    assert path[|path| - 2] == t[|t| - 2];
    assert path[|path| - 1] == t[|t| - 1];
  }

  /** Since no path ends with two extensions, the order of the checks does
      not matter: any extension the path ends with selects its type. */
  lemma {:induction false} TypeOfAnyExtension(path: string, k: nat, i: nat)
    requires k <= i < ExtensionCount && EndsWith(path, Extension(i))
    ensures TypeFrom(path, k) == TypeOf(i)
    decreases i - k
  {
    if k < i {
      if EndsWith(path, Extension(k)) {
        OneExtensionAtMost(path, k, i);
      }
      TypeOfAnyExtension(path, k + 1, i);
    }
  }

  /** A path with none of the extensions is served as text/plain. */
  lemma {:induction false} TypeOfNoExtension(path: string, k: nat)
    requires k <= ExtensionCount
    requires forall i :: k <= i < ExtensionCount ==> !EndsWith(path, Extension(i))
    ensures TypeFrom(path, k) == "text/plain"
    decreases ExtensionCount - k
  {
    if k < ExtensionCount {
      TypeOfNoExtension(path, k + 1);
    }
  }

  /** The chain from its start gives any extension's type, and text/plain
      without one. */
  lemma TypeFromStart(path: string)
    ensures forall i: nat :: i < ExtensionCount && EndsWith(path, Extension(i)) ==> TypeFrom(path, 0) == TypeOf(i)
    ensures (forall i: nat :: i < ExtensionCount ==> !EndsWith(path, Extension(i))) ==> TypeFrom(path, 0) == "text/plain"
  {
    forall i: nat | i < ExtensionCount && EndsWith(path, Extension(i))
      ensures TypeFrom(path, 0) == TypeOf(i)
    {
      TypeOfAnyExtension(path, 0, i);
    }
    if forall i: nat :: i < ExtensionCount ==> !EndsWith(path, Extension(i)) {
      TypeOfNoExtension(path, 0);
    }
  }

  /** The file a request is served from and the type it is served as. */
  datatype Target = Target(path: string, contentType: string)

  /** A directory path never ends with ".src". */
  lemma DirectoryIsNotSource(path: string)
    requires EndsWith(path, "/")
    ensures !EndsWith(path, ".src")
  {
    assert path[|path| - 1] == '/';
  }

  /** A directory's "index.htm" is not a ".src" file and is text/html. */
  lemma IndexPage(path: string)
    ensures !EndsWith(path + "index.htm", ".src")
    ensures TypeFrom(path + "index.htm", 0) == "text/html"
  {
    var p := path + "index.htm";
    assert p[|p| - 4..] == ".htm";
    assert p[|p| - 1] == 'm';
    TypeOfAnyExtension(p, 0, 1);
  }

  /** A directory is served from its "index.htm", as HTML. */
  lemma DirectoryTarget(path: string)
    ensures EndsWith(path, "/") ==>
      !EndsWith(path, ".src") && !EndsWith(path + "index.htm", ".src")
      && TypeFrom(path + "index.htm", 0) == "text/html"
  {
    if EndsWith(path, "/") {
      DirectoryIsNotSource(path);
    }
    IndexPage(path);
  }

  /** The last dot of a ".src" path is the one of its suffix. */
  lemma SourceDot(p: string)
    requires EndsWith(p, ".src")
    ensures LastIndexOf(p, '.') == Some(|p| - 4)
  {
    assert p[|p| - 4..] == ".src";
    assert p[|p| - 4] == '.';
    assert p[|p| - 3..] == "src";
  }

  /** The mapping at the top of `loadFromSpiffs`: a directory gets
      "index.htm"; a ".src" file is served from the file without that
      suffix, as plain text, so that a page's source can be viewed;
      otherwise the extension decides the type. */
  function MapPath(path: string): (r: Target)
    ensures EndsWith(path, "/") ==> r == Target(path + "index.htm", "text/html")
    ensures EndsWith(path, ".src") ==> r == Target(path[..|path| - 4], "text/plain")
    ensures !EndsWith(path, "/") && !EndsWith(path, ".src") ==> r.path == path
    ensures !EndsWith(path, "/") && !EndsWith(path, ".src") ==>
      forall i: nat :: i < ExtensionCount && EndsWith(path, Extension(i)) ==> r.contentType == TypeOf(i)
    ensures !EndsWith(path, "/") && !EndsWith(path, ".src")
            && (forall i: nat :: i < ExtensionCount ==> !EndsWith(path, Extension(i))) ==>
      r.contentType == "text/plain"
    ensures r.contentType != Octet
  {
    var isDirectory := EndsWith(path, "/");
    TypeFromStart(path);
    DirectoryTarget(path);
    var p := if isDirectory then path + "index.htm" else path;
    if EndsWith(p, ".src") then
      SourceDot(p);
      Target(p[..LastIndexOf(p, '.').value], "text/plain")
    else
      Target(p, TypeFrom(p, 0))
  }

  /** `loadFromSpiffs` up to streaming: nothing is served when the mapped
      file does not exist; otherwise it is served with its mapped type, or
      as a download when the request has a "download" argument. */
  function LoadFromSpiffs(path: string, args: Settings.Args, files: set<string>): (r: Option<Target>)
    ensures r.Some? <==> MapPath(path).path in files
    ensures r.Some? ==> r.value.path == MapPath(path).path
    ensures r.Some? ==> (r.value.contentType == Octet <==> "download" in args)
    ensures r.Some? && "download" !in args ==> r.value == MapPath(path)
  {
    var t := MapPath(path);
    if t.path !in files then None
    else if "download" in args then Some(t.(contentType := Octet))
    else Some(t)
  }
}
